=== FILE: README.md ===
# PinchChat core logic in Dafny

PinchChat is a browser chat client for an OpenClaw gateway. It has a small
Node backend that provisions agents. This project models the logic of its
core in Dafny and proves properties of that model:

- **History reconciliation** (`mergeWithCache`). When the gateway compacts a
  conversation, it reports a shorter window. The cached messages it dropped
  are kept, marked archived, in front of one "context compacted" separator,
  and then the live window follows (`message_cache.dfy`).
- **Small helpers** whose tests fix their behaviour:
  - the dotted-version comparison `isNewer` (`update_check.dfy`);
  - the slash-command menu predicate (`slash_utils.dfy`);
  - the image `src` builder (`image.dfy`);
  - the Markdown exporter (`export_conversation.dfy`).
- **The sidebar** (`sidebar.dfy`):
  - the persisted and dragged width;
  - the short model label;
  - the agent read from the session key;
  - the id typed into the new-agent form;
  - the list with one entry per agent, its ordering and name filter;
  - arrow-key focus, which wraps around (`focus_ring.dfy`, shared with the
    tab strip).
- **The agent tab strip** (`agent_picker.dfy`): roving `tabindex`
  navigation, per-agent session counts and the selection flags.
- **The locale store** (`i18n.dfy`, with the two dictionaries in
  `i18n_catalog.dfy`):
  - choosing the initial locale;
  - switching locale and notifying subscribers;
  - subscribing and unsubscribing;
  - translating with fallback.
- **The backend** (`server.dfy`):
  - adding an agent to `openclaw.json` and removing one;
  - the error replies;
  - the CORS preflight;
  - resolving static files and their content type.

The implementations of `mergeWithCache`, `isNewer`, `shouldShowSlashMenu`,
`buildImageSrc` and `exportAsMarkdown` are not part of this model. These
five are modelled from their test files, and the cited lines are the test
cases.

Where a test leaves a choice open, the model fixes one:

- the merge separator's id and its timestamp for an empty window are
  parameters;
- the separator has role `System`, empty content and no blocks;
- a stale separator fed back in as cache is archived like any other cached
  record;
- the exporter's exact layout beyond the strings the tests check is the
  model's own.

Shared vocabulary:

- `wrappers.dfy`: the `Option` type for JavaScript's `undefined`;
- `text.dfy`: trimming, ASCII lower-casing, `split`/`join`, `indexOf`,
  substring search and code-point string order;
- `chat_types.dfy`: the message, block, agent and session records.

Side effects become values in the model:

- mutable module state (the current locale, the listener set) is a
  `LocaleState` record;
- browser storage, the build-time locale and `navigator.language` are
  parameters;
- `openclaw.json` is a `Config` value read before a request and written after
  it;
- directory creation and SOUL.md writes are returned as a list of effects;
- which static files exist and can be read are sets given as parameters.

## Model

| member | source | states |
|---|---|---|
| MessageCache.MergeWithCache | src/lib/__tests__/messageCache.test.ts:24-50 | Compaction is reported exactly when some cached id is missing from the gateway window. Without compaction the window passes through unchanged. With it, the output is: the dropped cached messages in order, same ids and fields but archived; then one separator with the given id, empty content, stamped one before the first live message; then the window unchanged. |
| MessageCache.Missing | src/lib/__tests__/messageCache.test.ts:36-37 | The dropped messages are exactly the cached messages whose id the gateway no longer reports. There are never more of them than cached messages. |
| MessageCache.CollectMissing | src/lib/__tests__/messageCache.test.ts:24-37 | Collecting the gateway ids in a loop, then filtering the cache in a second loop, yields exactly the dropped messages. |
| MessageCache.MissingAppend | src/lib/__tests__/messageCache.test.ts:36-37 | Dropped messages keep cache order: the dropped part of a concatenated cache is the concatenation of the dropped parts. |
| MessageCache.MergeEmptyCache | src/lib/__tests__/messageCache.test.ts:10-15 | An empty cache gives the gateway window back with no compaction. |
| MessageCache.MergeSelf | src/lib/__tests__/messageCache.test.ts:17-22 | Merging a sequence with itself changes nothing: no archival and no separator. |
| MessageCache.MergeAppendOnly | src/lib/__tests__/messageCache.test.ts:17-22 | A window that only grew at the end of the cache passes through without compaction. |
| MessageCache.ThreePartUnique | src/lib/__tests__/messageCache.test.ts:24-40 | Id-disjoint parts with unique ids, glued around a separator whose id neither uses, have unique ids. |
| MessageCache.MergeIds | src/lib/__tests__/messageCache.test.ts:24-40 | The merged ids are exactly the cached ids and the gateway ids, plus the separator id when compacted: no message is lost or invented. |
| MessageCache.MergeUniqueIds | src/lib/__tests__/messageCache.test.ts:24-40 | With unique ids in both inputs and a fresh separator id, the merged sequence has unique ids. |
| MessageCache.HistoryKeptAcrossRefreshes | src/lib/__tests__/messageCache.test.ts:24-40 | Feeding one merge's result back as the next cache keeps every id seen so far. |
| MessageCache.CompactionScenario | src/lib/__tests__/messageCache.test.ts:24-50 | Three cached messages with only the newest still live give: two archived messages, a separator stamped 4999, then the live one. |
| MessageCache.EmptyGatewayScenario | src/lib/__tests__/messageCache.test.ts:52-59 | An empty window with one cached message gives that message archived, then a separator. |
| UpdateCheck.IsNewer | src/hooks/__tests__/useUpdateCheck.test.ts:5-32 | The remote version is newer exactly when, at the first segment where the two differ once padded with zeros, the remote segment is larger. |
| UpdateCheck.NewerIffLater | src/hooks/__tests__/useUpdateCheck.test.ts:5-32 | The segment comparison says "newer" exactly when, at the first differing segment (missing segments read as 0), the remote segment is larger. Both directions are proved. |
| UpdateCheck.Irreflexive | src/hooks/__tests__/useUpdateCheck.test.ts:17-19 | No version is newer than itself. |
| UpdateCheck.NotNewerThanSame | src/hooks/__tests__/useUpdateCheck.test.ts:17-19 | Versions equal after zero padding (such as 1.0 and 1.0.0) are not newer than each other in either direction. |
| UpdateCheck.Trichotomy | src/hooks/__tests__/useUpdateCheck.test.ts:29-32 | Two versions are equal, or exactly one of them is newer: swapping the arguments flips the answer for distinct versions. |
| UpdateCheck.Transitive | src/hooks/__tests__/useUpdateCheck.test.ts:5-23 | "Newer" is transitive. |
| UpdateCheck.MajorDominates | src/hooks/__tests__/useUpdateCheck.test.ts:5-7 | A higher major segment is newer whatever the lower segments say. |
| UpdateCheck.MinorDominates | src/hooks/__tests__/useUpdateCheck.test.ts:9-23 | With equal majors, a higher minor is newer whatever the patch says, and not the other way round. |
| UpdateCheck.MissingSegmentScenario | src/hooks/__tests__/useUpdateCheck.test.ts:21-32 | 1.1 is newer than 1.0.9, 1.3.9 is not newer than 1.4.0, and 1.66.1 and 1.66.0 compare in one direction only. |
| UpdateCheck.SegmentsOfThree | src/hooks/__tests__/useUpdateCheck.test.ts:29-32 | A version of three dot-free parts reads as the values of those three parts. |
| UpdateCheck.SegmentsOfTwo | src/hooks/__tests__/useUpdateCheck.test.ts:25-27 | A version of two dot-free parts reads as the values of those two parts. |
| UpdateCheck.MissingSegmentStrings | src/hooks/__tests__/useUpdateCheck.test.ts:25-27 | "1.1" reads as 1, 1 and "1.0.9" as 1, 0, 9, and "1.1" is newer than "1.0.9" on the strings themselves. |
| UpdateCheck.ParseScenario | src/hooks/__tests__/useUpdateCheck.test.ts:29-32 | "1.66.0" reads as the segments 1, 66 and 0: segments are numbers, not text. |
| SlashUtils.ShouldShowSlashMenu | src/lib/__tests__/slashUtils.test.ts:21-23 | The menu never shows for text containing a newline. |
| SlashUtils.ShowIff | src/lib/__tests__/slashUtils.test.ts:5-27 | The menu shows exactly when the text has no newline and contains a '/' with only white space before it. |
| SlashUtils.LeadingSpaceIgnored | src/lib/__tests__/slashUtils.test.ts:9-11 | A leading space never changes the answer. |
| SlashUtils.OtherFirstCharHides | src/lib/__tests__/slashUtils.test.ts:13-19 | A first character that is neither '/' nor white space keeps the menu closed, whatever follows. |
| SlashUtils.SlashAtShows | src/lib/__tests__/slashUtils.test.ts:5-11 | A single line with a '/' preceded only by white space shows the menu. |
| SlashUtils.NewlineHides | src/lib/__tests__/slashUtils.test.ts:21-23 | Any newline keeps the menu closed. |
| SlashUtils.SlashFirstShows | src/lib/__tests__/slashUtils.test.ts:5-7 | A single line starting with '/' shows the menu. |
| SlashUtils.ShowScenarioCommand | src/lib/__tests__/slashUtils.test.ts:5-7 | "/status" shows the menu. |
| SlashUtils.ShowScenarioLeadingSpaces | src/lib/__tests__/slashUtils.test.ts:9-11 | "  /help" shows the menu. |
| SlashUtils.ShowScenarioSlashOnly | src/lib/__tests__/slashUtils.test.ts:25-27 | "/" alone shows the menu. |
| SlashUtils.HideScenarios | src/lib/__tests__/slashUtils.test.ts:13-23 | "hello" (no slash), "hello /cmd" (a slash later in the text) and "/cmd\nmore" (two lines) all hide the menu. |
| Image.BuildImageSrc | src/lib/__tests__/image.test.ts:5-31 | A non-empty url wins, even over data. Otherwise non-empty data gives a URL starting with "data:", the MIME type and ";base64,". Otherwise the result is the empty string. |
| Image.DataUrlRoundTrip | src/lib/__tests__/image.test.ts:15-23 | A data URL built from a MIME type and data parses back into exactly that MIME type and that data. |
| Image.Scenarios | src/lib/__tests__/image.test.ts:5-31 | A URL is returned as given, with or without data. "abc123" as PNG gives "data:image/png;base64,abc123", and "xyz" as JPEG gives "data:image/jpeg;base64,xyz". PNG or WebP with neither data nor URL gives "". |
| ExportConversation.TruncateResult | src/lib/__tests__/exportConversation.test.ts:60-71 | A tool result up to 2000 characters is kept whole. A longer one keeps its first 2000 characters and gains the "...(truncated)" note. |
| ExportConversation.TruncatedLinesBounded | src/lib/__tests__/exportConversation.test.ts:60-71 | For a single-line tool result of any length, every line of its truncated form has at most 2000 characters: the kept part and the note. |
| ExportConversation.ExportAsMarkdown | src/lib/__tests__/exportConversation.test.ts:14-30 | The document opens with "# " and its title, and the rendered messages occur in it. |
| ExportConversation.ExportTitle | src/lib/__tests__/exportConversation.test.ts:19-30 | The document opens with "# " and the session label, or "# Conversation" when there is no label. |
| ExportConversation.ConcatContains | src/lib/__tests__/exportConversation.test.ts:14-38 | Every section appears in the document that lays the sections end to end. |
| ExportConversation.RenderMessagesContains | src/lib/__tests__/exportConversation.test.ts:14-25 | Every message's section appears in the rendered body. |
| ExportConversation.ExportContainsMessage | src/lib/__tests__/exportConversation.test.ts:14-25 | Every message's section appears in the exported document. |
| ExportConversation.RenderBlocksContains | src/lib/__tests__/exportConversation.test.ts:32-38 | Every block's rendering appears in its message's block text. |
| ExportConversation.MessageSection | src/lib/__tests__/exportConversation.test.ts:82-86 | A message's section carries its role heading and its body. Without blocks, the body is the plain content. |
| ExportConversation.MessageSectionBlock | src/lib/__tests__/exportConversation.test.ts:32-38 | Every block of an ordinary message appears in its section. |
| ExportConversation.SeparatorSection | src/lib/__tests__/exportConversation.test.ts:73-80 | A compaction separator renders as a "---" rule with "*Context compacted*". |
| ExportConversation.ThinkingShows | src/lib/__tests__/exportConversation.test.ts:40-49 | A thinking block opens with "<details>", carries "💭 Thinking" and the text, and contains "</details>". |
| ExportConversation.ToolUseShows | src/lib/__tests__/exportConversation.test.ts:51-58 | A tool call opens with "**🔧 Tool: `name`**" and carries its input. |
| ExportConversation.ToolResultShows | src/lib/__tests__/exportConversation.test.ts:60-71 | A tool result opens with "**📋 Result:**" and carries its truncated content. |
| ExportConversation.ExportShowsUserText | src/lib/__tests__/exportConversation.test.ts:14-25 | A user message without blocks puts "### 👤 User" and its content into the document. |
| ExportConversation.ExportShowsBlock | src/lib/__tests__/exportConversation.test.ts:32-38 | Every block of every ordinary message, and its role heading, appear in the document. |
| ExportConversation.ExportShowsSeparator | src/lib/__tests__/exportConversation.test.ts:73-80 | A separator anywhere in the conversation puts "*Context compacted*" into the document. |
| ChatTypes.DisplayName | src/components/AgentPicker.tsx:72 | The name an agent is shown under is its identity name when non-empty, else its id. It is never empty for a non-empty id. |
| FocusRing.NextIndex | src/components/Sidebar.tsx:268 | One step forward stays in range for any start from -1 onwards. It wraps from the last index to 0. |
| FocusRing.PrevIndex | src/components/Sidebar.tsx:273 | One step back stays in range for any start up to the length. It wraps from 0 or -1 to the last index. |
| FocusRing.StepsInverse | src/components/Sidebar.tsx:263-274 | Within range, a step back undoes a step forward and the other way round. |
| FocusRing.FullCycle | src/components/Sidebar.tsx:263-269 | As many forward steps as the list is long return to the start. |
| Sidebar.SavedWidth | src/components/Sidebar.tsx:12-21 | The initial width always lies in [220, 480]. It is the stored number when that number lies in range, and 288 otherwise. |
| Sidebar.DragWidth | src/components/Sidebar.tsx:82 | The dragged width is always in [220, 480]. It equals the start width plus the mouse movement when that lies in range, and otherwise the nearer bound. |
| Sidebar.DragMonotone | src/components/Sidebar.tsx:82 | Dragging further right never narrows the sidebar. |
| Sidebar.FirstKnown | src/components/Sidebar.tsx:28-33 | It finds the first part whose lower-case form is one of opus, sonnet, haiku, flash, pro, nano. It finds none exactly when no part is such a name. |
| Sidebar.ShortModel | src/components/Sidebar.tsx:24-35 | There is no label exactly when the model is absent or empty. A label is at most 16 characters. With a known family, the label is the first part (in split order) whose lower-case form is a known family, lower-cased. Without one, the label is the id itself when at most 16 characters, else its first 14 characters and "…". |
| Sidebar.ShortModelKnown | src/components/Sidebar.tsx:28-33 | When part i names a known family, the label is the lower-cased part j for some j <= i, and no part before j names a family: the first match wins. |
| Sidebar.ShortModelFamily | src/components/Sidebar.tsx:23-33 | An id shaped like "claude-3-opus" shortens to its family in lower case. |
| Sidebar.ActiveAgentId | src/components/Sidebar.tsx:127-130 | An extracted agent id is non-empty and contains no ':'. |
| Sidebar.ActiveAgentIdIff | src/components/Sidebar.tsx:127-130 | A key names agent `id` exactly when it starts with "agent:", then `id` (non-empty, no ':'), then ':'. |
| Sidebar.CanonicalKeyRoundTrip | src/components/Sidebar.tsx:172 | Reading the agent out of its canonical key "agent:<id>:main" gives the agent back. |
| Sidebar.SanitizeAgentId | src/components/Sidebar.tsx:138 | The typed id is trimmed and lower-cased. A lower-cased character in a-z, 0-9, '_' or '-' is kept, and every other one becomes '-'. Every character of the result is an id character, and the length is the trimmed length. |
| Sidebar.SanitizeIdempotent | src/components/Sidebar.tsx:138 | Sanitising a sanitised id changes nothing. |
| Sidebar.TrimmedOrNone | src/components/Sidebar.tsx:143 | A name or emoji is passed trimmed, or not at all when it trims to nothing. |
| Sidebar.CreateAgentRequest | src/components/Sidebar.tsx:137-143 | Creation is attempted exactly when a create handler exists and the typed id is not all white space. The request carries the sanitised, non-empty id and the trimmed name and emoji. |
| Sidebar.SessionsOf | src/components/Sidebar.tsx:161-167 | An agent's sessions are exactly those carrying its non-empty agent id. |
| Sidebar.SessionsOfAppend | src/components/Sidebar.tsx:161-167 | Grouping keeps the sessions' order: the sessions of a concatenated list are the first part's followed by the second part's. |
| Sidebar.FindByKey | src/components/Sidebar.tsx:173 | It finds a session with the key exactly when one exists, and the one it finds is the first such session in the list. |
| Sidebar.MostRecent | src/components/Sidebar.tsx:175-176 | It picks the first of the sessions with the largest `updatedAt` (missing reads as 0). No session is more recent, and every earlier one is strictly older. |
| Sidebar.BestSession | src/components/Sidebar.tsx:170-177 | The chosen session carries the agent's id and comes from the session list. There is none exactly when the agent has no sessions. |
| Sidebar.BestSessionSpec | src/components/Sidebar.tsx:169-178 | An agent's session belongs to it. It is absent exactly when the agent has no sessions. It is the canonical-key session when there is one, and otherwise one no other session of the agent is more recent than. |
| Sidebar.Insert | src/components/Sidebar.tsx:179-185 | Inserting into a sorted list keeps it sorted and adds exactly the one entry. |
| Sidebar.SortChats | src/components/Sidebar.tsx:179-185 | The sorted list is a permutation of its input, ordered by the comparator. |
| Sidebar.Entries | src/components/Sidebar.tsx:169-178 | There is one entry per agent, in agent order, each with its best session and canonical key. |
| Sidebar.SortedTimes | src/components/Sidebar.tsx:181-183 | In the sorted list, a later entry is never more recent than an earlier one. |
| Sidebar.SortedTies | src/components/Sidebar.tsx:184 | Among equally recent entries, agent ids never decrease along the list. |
| Sidebar.AgentChats | src/components/Sidebar.tsx:160-186 | One entry per agent, a permutation of the per-agent entries, in comparator order (most recent first, ties by id). |
| Sidebar.AgentChatsSpec | src/components/Sidebar.tsx:160-186 | The list is a permutation of the per-agent entries, holding every agent. Each entry is keyed by its canonical key and carries its best session. Entries are ordered by recency descending, ties by id ascending. |
| Sidebar.KeepMatching | src/components/Sidebar.tsx:191-195 | An entry is kept exactly when its lower-cased display name contains the query. |
| Sidebar.KeepMatchingAppend | src/components/Sidebar.tsx:191-195 | The filter keeps list order: it distributes over concatenation. |
| Sidebar.FilterChats | src/components/Sidebar.tsx:189-196 | A blank filter keeps the list as is. Otherwise an entry stays exactly when its lower-cased display name contains the lower-cased, untrimmed filter. |
| Sidebar.ListKeyDown | src/components/Sidebar.tsx:262-283 | On an empty list nothing happens. ArrowDown and ArrowUp step the focus with wrap-around. Enter switches to the focused entry's key and closes, and does so only when the focus is in range. Escape closes without switching. Nothing else closes the sidebar, and no other key moves the focus. |
| Sidebar.ArrowsStayInRange | src/components/Sidebar.tsx:263-274 | From no focus or any focused entry, the arrow keys land on an entry. |
| Sidebar.DownThenUp | src/components/Sidebar.tsx:263-274 | ArrowUp undoes ArrowDown on a focused entry. |
| AgentPicker.ActiveDotPlacement | src/components/AgentPicker.tsx:93 | The activity dot is never on the selected tab and is on at most one agent. It is on the open conversation's agent whenever that agent's tab is not selected, so with "All" selected it marks exactly that agent. |
| AgentPicker.SelectionExclusive | src/components/AgentPicker.tsx:40-79 | "All" and an agent tab are never selected together. At most one agent id is selected. When no agent is selected, "All" is. |
| AgentPicker.TabIndexes | src/components/AgentPicker.tsx:54-79 | "All" is in the tab order exactly when no agent is selected. An agent's tab is in the tab order exactly when its id is selected. Every tabindex is 0 or -1. |
| AgentPicker.CurrentTab | src/components/AgentPicker.tsx:28 | It is the first tab with tabindex 0, or -1 exactly when there is none. |
| AgentPicker.SetTab | src/components/AgentPicker.tsx:35-36 | Setting a tabindex outside the strip changes nothing. Otherwise only that tab changes. |
| AgentPicker.HandleTabKey | src/components/AgentPicker.tsx:22-38 | Keys other than ArrowLeft and ArrowRight change nothing. An arrow key on a non-empty strip focuses the next or previous tab, with wrap-around, and gives it tabindex 0. The previously current tab gets -1, and every other tab is unchanged. |
| AgentPicker.ArrowMovesActiveTab | src/components/AgentPicker.tsx:22-38 | With exactly one tab in the tab order, an arrow key moves that role to the neighbouring tab, which receives focus. |
| AgentPicker.RightThenLeft | src/components/AgentPicker.tsx:22-38 | On a strip of 0/-1 tabindexes with one active tab, ArrowLeft undoes ArrowRight. |
| AgentPicker.AllTabActive | src/components/AgentPicker.tsx:54 | With nothing selected, "All" is the single tab in the tab order. |
| AgentPicker.AgentTabActive | src/components/AgentPicker.tsx:79 | Selecting an agent with a unique id puts exactly its tab in the tab order. |
| AgentPicker.SessionCount | src/components/AgentPicker.tsx:18-20 | An agent's count never exceeds the total shown on "All". It is zero exactly when no session carries that agent id. |
| AgentPicker.SessionCountAppend | src/components/AgentPicker.tsx:18-20 | Counting distributes over concatenated session lists. |
| AgentPicker.CountMatchesSidebar | src/components/AgentPicker.tsx:18-20 | For a non-empty id, the tab's count equals the number of sessions the sidebar groups under that agent. |
| AgentPicker.CountsWithinTotal | src/components/AgentPicker.tsx:64-71 | The counts of distinct agents add up to at most the total session count. |
| I18n.Dictionary | src/lib/i18n.ts:287-289 | Exactly "en" and "fr" have a dictionary, each covering every translation key. |
| I18n.Position | src/lib/i18n.ts:346 | It finds the first position of a key, and finds none exactly when the key is absent. |
| I18n.Entry | src/lib/i18n.ts:346 | A dictionary holds a text exactly for the known keys, namely the text at that key's position. |
| I18n.CurrentDictionary | src/lib/i18n.ts:319 | The dictionary in use is the current locale's own when it has one. |
| I18n.T | src/lib/i18n.ts:345-347 | An unknown key reads as itself. A known key reads as the current dictionary's text. |
| I18n.TranslationComplete | src/lib/i18n.ts:155 | In a supported locale, a known key is translated from that locale's own dictionary, never from a fallback. |
| I18n.UnsupportedReadsEnglish | src/lib/i18n.ts:319 | A locale without a dictionary reads every text as English does. |
| I18n.PrimaryLanguage | src/lib/i18n.ts:310 | The primary language is a prefix of the language tag and contains no '-'. |
| I18n.ResolveInitialLocale | src/lib/i18n.ts:297-316 | The initial locale always has a dictionary. It is the stored locale when supported, else the build-time locale when supported, else the browser's primary language when supported, else "en". |
| I18n.Initial | src/lib/i18n.ts:318-322 | At start-up the locale is supported, nothing is subscribed and nobody has been notified. |
| I18n.SetLocale | src/lib/i18n.ts:336-342 | A locale without a dictionary, or the current locale, changes nothing. A new supported locale becomes current and is persisted when storage accepts it. Every listener is then called once, in subscription order. |
| I18n.SetLocaleIdempotent | src/lib/i18n.ts:337 | Switching twice to the same locale is the same as switching once, so nobody is notified twice. |
| I18n.SetLocaleKeepsSupported | src/lib/i18n.ts:336-339 | The current locale keeps a dictionary across switches. |
| I18n.PersistedLocaleSurvivesReload | src/lib/i18n.ts:301 | After a persisted switch, start-up resolves to the chosen locale whatever the environment says. |
| I18n.SwitchChangesTexts | src/lib/i18n.ts:339 | After a switch, known keys read from the new locale's dictionary. |
| I18n.Remove | src/lib/i18n.ts:327 | Deleting a listener removes it and keeps every other one. |
| I18n.RemoveAppend | src/lib/i18n.ts:327 | Deleting distributes over concatenation, so the remaining listeners keep their order. |
| I18n.RemoveSingle | src/lib/i18n.ts:327 | A single listener is dropped exactly when it is the one deleted. |
| I18n.OnLocaleChange | src/lib/i18n.ts:325-326 | A new listener is appended last, after every earlier subscriber. Subscribing a listener already present leaves the whole state unchanged, so it keeps its place. Nothing else changes. |
| I18n.Unsubscribe | src/lib/i18n.ts:327 | Unsubscribing removes exactly that listener and leaves the others subscribed. |
| I18n.SubscribeThenUnsubscribe | src/lib/i18n.ts:325-328 | Subscribing a new listener and then unsubscribing it restores the state. |
| I18n.UnsubscribedNotNotified | src/lib/i18n.ts:341 | An unsubscribed listener is not called by a later switch. |
| I18n.SubscribedNotifiedOnce | src/lib/i18n.ts:341 | A subscribed listener is called exactly once by a switch to another supported locale. |
| I18n.ResolveInitialLocaleAsWritten | src/lib/i18n.ts:301 | With the truthiness test as written, any inherited object property name, such as "toString", is taken as a locale. |
| I18n.SetLocaleAsWritten | src/lib/i18n.ts:337 | With the truthiness test as written, `setLocale` switches to inherited property names. |
| I18n.InheritedNameAcceptedAsWritten | src/lib/i18n.ts:301 | As written, a stored "toString" becomes the locale and `setLocale("constructor")` switches to it. The corrected functions answer "en" and change nothing. |
| Server.NewEntry | server.js:83-92 | A new entry always has the id and both paths. It has an identity only for a non-empty name, a model only for a non-empty model, and tools only for a non-empty skill list. |
| Server.WithList | server.js:75-76 | Missing `agents` and `agents.list` are created. Everything else in the configuration is kept. |
| Server.ProvisionConfig | server.js:75-94 | An id already listed is refused with `Agent "<id>" already exists`. Otherwise exactly the new entry is appended at the end, and the rest of the configuration is kept. |
| Server.ProvisionListsOnce | server.js:79-94 | After provisioning, the new id is listed exactly once, last. |
| Server.SetupEffects | server.js:56-69 | Provisioning creates the workspace and agent directories. It writes SOUL.md exactly when one is given. |
| Server.ProvisionEffectsAsWritten | server.js:60-81 | As written, the directories are created and SOUL.md is written whatever the configuration holds, so before the duplicate check. |
| Server.ProvisionEffects | server.js:60-81 | A refused id touches no file. A new id gets the same effects as written. |
| Server.DuplicateOverwritesSoul | server.js:60-81 | Re-posting an existing id with a SOUL.md is refused, yet as written it overwrites that agent's SOUL.md. With the check first, it does not. |
| Server.FindAgent | server.js:137 | It finds the first entry with the id, and finds none exactly when no entry has it. |
| Server.RemoveFirstMatch | server.js:137-140 | Splicing at the first match removes exactly one entry with that id and keeps every entry with another id. |
| Server.HandlePost | server.js:111-122 | A malformed body gives 500. A missing or empty id gives 400 "id is required", and nothing else gives 400. An unreadable configuration gives 500 with its error, after the agent directory, the workspace and SOUL.md have been set up (Server.SetupEffects), in the order the source uses. An id already listed gives 500 `Agent "<id>" already exists`. Success (200) happens exactly when the configuration is readable and the id is new. It answers with the entry Server.NewEntry builds from the request's id, name, model and skills. It writes the list plus that entry and leaves the rest of the configuration unchanged. It performs exactly the setup effects (Server.SetupEffects) for the id and SOUL.md text. Any other outcome writes nothing. The handler uses the corrected provisioning order (Server.ProvisionEffects), so a refused duplicate creates no directory and writes no file. Lines 61-69 of server.js do both before the check (see "## Findings"). |
| Server.HandleDelete | server.js:125-150 | A malformed body gives 500, and a missing or empty id gives 400. An unreadable configuration gives 500 with its error. A missing `agents` or `list` gives 404 "No agents configured", and an id not in the list gives 404 `Agent "<id>" not found`; these are the only 404s. Success (200) happens exactly when the id is listed: the first match is removed and the rest of the configuration is kept. |
| Server.PostThenDelete | server.js:111-150 | Deleting an agent just provisioned gives the list back as it was. |
| Server.PostTwiceRefused | server.js:79-81 | A second POST of the same id is refused with a 500 and writes nothing. |
| Server.MimeType | server.js:24-35 | Exactly the ten listed extensions have a content type. |
| Server.LastIndexOf | server.js:158 | It finds the last position of a character, and finds none exactly when the character is absent. |
| Server.BaseName | server.js:158 | The last path component contains no '/'. |
| Server.ExtName | server.js:158 | An extension is empty, or a '.' followed by no further '.' or '/'. It is always the end of the path. Server.ExtNameUnder gives its value for a file in any directory. |
| Server.AppendedFoundLast | server.js:137-140 | An entry appended under a new id is the first match for that id, and splicing it out restores the list. |
| Server.ExtNameUnder | server.js:158 | A file "<dir>/<stem><ext>" in any directory, with a non-empty '/'-free stem (dots allowed) and an extension of one dot and at least one more character, has extension `ext`. |
| Server.ScriptServedAsJavaScript | server.js:158-159 | A built script "<dir>/<stem>.js", such as "/assets/index-<hash>.js", gets the content type "application/javascript". |
| Server.StaticTarget | server.js:153-154 | An existing path other than "/" resolves to itself. "/" and every path that does not exist resolve to the index page. |
| Server.ServeStatic | server.js:153-164 | An existing, readable path other than "/" is served as itself, with 200 and the content type its extension maps to, or "application/octet-stream". An existing unreadable one gets 404 "Not found". For "/" or a missing path the index page is served with 200 when readable, else 404. The status is 200 exactly when file bytes are sent. |
| Server.IndexIsHtml | server.js:25 | The index page's content type is "text/html". |
| Server.SpaFallback | server.js:153-159 | "/" and any missing path are answered with the index page as HTML. |
| Server.Handle | server.js:103-165 | A preflight gets 204 on any path. POST and DELETE on /api/agents go to their handlers, and only they write the configuration. Everything else is a static file. |

## Left out

- Rendering is not modelled: JSX, CSS classes, React hooks and effects, DOM listeners, focus and `scrollIntoView` calls. Only the index, list and string logic is modelled.
- `updateFilter` stores the filter text and resets keyboard focus to -1. It is a state assignment with nothing to prove.
- The Ctrl/Cmd+K shortcut, delete confirmations, the create-agent form's busy and error state, and `relativeTime` are out of scope.
- `localeCompare` is replaced by code-point order (`Text.LexLess`). `toLowerCase` is replaced by ASCII case folding, so non-ASCII letters keep their case.
- SanitizeAgentId: a character outside the Basic Multilingual Plane is one character in the model, but JavaScript's `replace` sees two UTF-16 units and writes "--". There the real id is longer than `|Trim(raw)|`, and the model's length clause does not hold.
- String lengths count Unicode code points. JavaScript counts UTF-16 units, so the 14/16-character model-label cut and the 2000-character result cut differ for text outside the Basic Multilingual Plane.
- Sidebar.DragWidth: widths and pointer positions are exact `real` numbers, while JavaScript adds doubles at Sidebar.tsx:82. The clamp to [220, 480] and the monotonicity (Sidebar.DragMonotone) still hold under rounding, but the exact in-range value may differ in the last bit.
- Sidebar.SavedWidth: reading storage and `Number()` parsing are folded into an optional number, which is absent when nothing is stored, the text is empty, it does not parse, or storage is unavailable.
- Sidebar.SortChats: sortedness and permutation are proved, but stability is not stated, although the insertion is stable.
- Image.BuildImageSrc: the data-URL case is stated as a prefix plus the `Image.DataUrlRoundTrip` round trip, not as the literal concatenation.
- UpdateCheck: a segment of decimal digits reads as its value, and any other segment reads as 0. This is the model's own choice: the implementation of `isNewer` is not part of this model, and the tests use only digit segments.
- Exporter: tool input is an opaque string standing for its `JSON.stringify` rendering.
- i18n: storage, the build-time variable and `navigator.language` are parameters. Listeners are numbers, and a notification is an entry in a log. Re-entrant subscribe or unsubscribe during notification is not modelled, and neither is `getLocale` (it reads `current`).
- The i18n dictionaries' texts are copied as constants. The uniqueness of the 113 keys is not proved, and lookup uses the first occurrence.
- server.js: these are not modelled:
  - the HTTP server, body streaming and CORS response headers;
  - `homedir` (the OpenClaw directory is a parameter);
  - the 2-second hot-reload wait;
  - `path.join` normalisation of request paths and of ids containing '/' or '..';
  - failures of `mkdirSync` and `writeFileSync`.
- server.js: request fields are modelled as strings or absent. JSON numbers, booleans or objects in their place are not modelled.
- server.js: `extname` ignores trailing slashes. The model does not, which matters only for paths that end in '/'. Such a path names a directory or does not exist, so it is never served with a content type.
- Excluded test suites: notification sounds (Web Audio and floating point), bookmarks (storage wrapper), and `cn`, `genId` and `genIdempotencyKey` (a foreign library, clock and randomness).

## Findings

| source | as written | input that shows it | evidently intended | confidence | as-written member | corrected member |
|---|---|---|---|---|---|---|
| src/lib/i18n.ts:301 | `messages[stored]` is truthy for names inherited from `Object.prototype`. The same test is used at lines 306, 311 and 337. | stored locale "toString", or `setLocale("constructor")` | only "en" and "fr" are accepted as locales | medium; not executed | I18n.ResolveInitialLocaleAsWritten, I18n.SetLocaleAsWritten (shown by I18n.InheritedNameAcceptedAsWritten) | I18n.ResolveInitialLocale, I18n.SetLocale |
| server.js:64-81 | SOUL.md is written and the directories are created before the duplicate check | POST /api/agents with an existing id and a `soul_md` | a refused request leaves the existing agent's files alone | medium; not executed | Server.ProvisionEffectsAsWritten (shown by Server.DuplicateOverwritesSoul) | Server.ProvisionEffects |

The rest of the model uses the corrected members. As written, the first
finding leaves the app showing English texts under a locale named after an
object property. The second overwrites an existing agent's SOUL.md while
answering 500 "already exists".

=== FILE: agent_picker.dfy ===
/**
 * The agent tab strip above the sidebar list: an "All" tab followed by one
 * tab per agent, roving `tabindex` keyboard navigation with ArrowLeft and
 * ArrowRight, per-agent session counts and the selection flags.
 */
module AgentPicker {
  import opened Wrappers
  import opened ChatTypes
  import opened FocusRing
  import Sidebar

  // ---------------------------------------------------------------------------
  // Selection flags

  /** The "All" tab is selected when no agent is. */
  predicate AllSelected(selected: Option<string>) {
    selected.None?
  }

  predicate AgentSelected(selected: Option<string>, agentId: string) {
    selected == Some(agentId)
  }

  /** The activity dot: the agent of the open conversation, unless its tab is the selected one. */
  predicate ShowActiveDot(activeAgentId: Option<string>, selected: Option<string>, agentId: string) {
    activeAgentId == Some(agentId) && !AgentSelected(selected, agentId)
  }

  /**
   * The dot marks exactly the open conversation's agent among the tabs that
   * are not selected: never the selected tab, never a second agent.
   */
  lemma ActiveDotPlacement(activeAgentId: Option<string>, selected: Option<string>, a: string, b: string)
    ensures ShowActiveDot(activeAgentId, selected, a) ==> !AgentSelected(selected, a) && activeAgentId.Some?
    ensures ShowActiveDot(activeAgentId, selected, a) && ShowActiveDot(activeAgentId, selected, b) ==> a == b
    ensures activeAgentId == Some(a) && !AgentSelected(selected, a) ==> ShowActiveDot(activeAgentId, selected, a)
    ensures AllSelected(selected) ==> (ShowActiveDot(activeAgentId, selected, a) <==> activeAgentId == Some(a))
  {
  }

  /** At most one kind of tab is selected, and only the agent whose id is selected. */
  lemma SelectionExclusive(selected: Option<string>, a: string, b: string)
    ensures !(AllSelected(selected) && AgentSelected(selected, a))
    ensures AgentSelected(selected, a) && AgentSelected(selected, b) ==> a == b
    ensures AllSelected(selected) || exists id :: AgentSelected(selected, id)
  {
    if selected.Some? { assert AgentSelected(selected, selected.value); }
  }

  // ---------------------------------------------------------------------------
  // Roving tabindex

  /** The rendered `tabindex` of each tab: 0 for the selected tab, -1 for the others; "All" comes first. */
  function TabIndexes(agents: seq<Agent>, selected: Option<string>): (tabs: seq<int>)
    ensures |tabs| == |agents| + 1
    ensures tabs[0] == 0 <==> AllSelected(selected)
    ensures forall k :: 0 <= k < |agents| ==> (tabs[k + 1] == 0 <==> AgentSelected(selected, agents[k].id))
    ensures forall k :: 0 <= k < |tabs| ==> tabs[k] == 0 || tabs[k] == -1
  {
    [if AllSelected(selected) then 0 else -1]
      + seq(|agents|, k requires 0 <= k < |agents| => if AgentSelected(selected, agents[k].id) then 0 else -1)
  }

  /** `findIndex` of the tab whose tabindex is 0; -1 when there is none. */
  function CurrentTab(tabs: seq<int>): (r: int)
    ensures -1 <= r < |tabs|
    ensures r == -1 <==> forall k :: 0 <= k < |tabs| ==> tabs[k] != 0
    ensures r >= 0 ==> tabs[r] == 0 && forall k :: 0 <= k < r ==> tabs[k] != 0
  {
    if tabs == [] then -1
    else if tabs[0] == 0 then 0
    else
      var r := CurrentTab(tabs[1..]);
      if r == -1 then -1 else r + 1
  }

  /** `tabs[i]?.setAttribute('tabindex', v)`: an index outside the strip does nothing. */
  function SetTab(tabs: seq<int>, i: int, v: int): (r: seq<int>)
    ensures |r| == |tabs|
    ensures forall k :: 0 <= k < |tabs| ==> r[k] == (if k == i then v else tabs[k])
  {
    if 0 <= i < |tabs| then tabs[i := v] else tabs
  }

  /** The tabindex values after a key press and the tab that receives focus, if any. */
  datatype TabOutcome = TabOutcome(tabs: seq<int>, focus: Option<nat>)

  /** handleKeyDown on the tab strip. */
  function HandleTabKey(tabs: seq<int>, key: string): (r: TabOutcome)
    ensures key != "ArrowLeft" && key != "ArrowRight" ==> r == TabOutcome(tabs, None)
    ensures |r.tabs| == |tabs|
    ensures r.focus.Some? ==> r.focus.value < |tabs| && r.tabs[r.focus.value] == 0
    ensures (key == "ArrowLeft" || key == "ArrowRight") && |tabs| > 0 ==> r.focus.Some?
    ensures key == "ArrowRight" && r.focus.Some? ==> r.focus.value == NextIndex(CurrentTab(tabs), |tabs|)
    ensures key == "ArrowLeft" && r.focus.Some? ==> r.focus.value == PrevIndex(CurrentTab(tabs), |tabs|)
    ensures r.focus.Some? ==> forall k :: 0 <= k < |tabs| && k != r.focus.value ==>
      r.tabs[k] == (if k == CurrentTab(tabs) then -1 else tabs[k])
  {
    if key != "ArrowLeft" && key != "ArrowRight" then TabOutcome(tabs, None)
    else
      var len := |tabs|;
      var current := CurrentTab(tabs);
      var next := if key == "ArrowRight" then NextIndex(current, len) else PrevIndex(current, len);
      var updated := SetTab(SetTab(tabs, current, -1), next, 0);
      TabOutcome(updated, if 0 <= next < len then Some(next) else None)
  }

  /** Tab `i` is the one and only tab with tabindex 0. */
  predicate OnlyActive(tabs: seq<int>, i: nat) {
    i < |tabs| && tabs[i] == 0 && forall k :: 0 <= k < |tabs| && k != i ==> tabs[k] != 0
  }

  /**
   * With exactly one tab in the tab order, an arrow key moves that role to
   * the neighbouring tab (wrapping), which receives focus.
   */
  lemma ArrowMovesActiveTab(tabs: seq<int>, i: nat, key: string)
    requires OnlyActive(tabs, i)
    requires key == "ArrowLeft" || key == "ArrowRight"
    ensures var next := if key == "ArrowRight" then NextIndex(i, |tabs|) else PrevIndex(i, |tabs|);
      && 0 <= next < |tabs|
      && HandleTabKey(tabs, key).focus == Some(next)
      && OnlyActive(HandleTabKey(tabs, key).tabs, next)
  {
    assert CurrentTab(tabs) == i;
  }

  /** ArrowLeft undoes ArrowRight on a strip of 0/-1 tabindexes with one active tab. */
  lemma RightThenLeft(tabs: seq<int>, i: nat)
    requires OnlyActive(tabs, i)
    requires forall k :: 0 <= k < |tabs| ==> tabs[k] == 0 || tabs[k] == -1
    ensures HandleTabKey(HandleTabKey(tabs, "ArrowRight").tabs, "ArrowLeft").tabs == tabs
  {
    ArrowMovesActiveTab(tabs, i, "ArrowRight");
    var mid := HandleTabKey(tabs, "ArrowRight").tabs;
    var next := NextIndex(i, |tabs|);
    ArrowMovesActiveTab(mid, next, "ArrowLeft");
    StepsInverse(i, |tabs|);
    var back := HandleTabKey(mid, "ArrowLeft").tabs;
    assert forall k :: 0 <= k < |tabs| ==> back[k] == tabs[k];
  }

  /** With no agent selected, "All" is the single tab in the tab order. */
  lemma AllTabActive(agents: seq<Agent>)
    ensures OnlyActive(TabIndexes(agents, None), 0)
  {
  }

  /** Selecting an agent whose id is unique in the list puts exactly its tab in the tab order. */
  lemma AgentTabActive(agents: seq<Agent>, k: nat)
    requires k < |agents|
    requires forall j :: 0 <= j < |agents| && j != k ==> agents[j].id != agents[k].id
    ensures OnlyActive(TabIndexes(agents, Some(agents[k].id)), k + 1)
  {
    var tabs := TabIndexes(agents, Some(agents[k].id));
    forall j | 0 <= j < |tabs| && j != k + 1
      ensures tabs[j] != 0
    {
      if j > 0 { assert agents[j - 1].id != agents[k].id; }
    }
  }

  // ---------------------------------------------------------------------------
  // Session counts

  /** sessionCountByAgent: the sessions whose agent id is exactly `agentId`. */
  function SessionCount(sessions: seq<Session>, agentId: string): (n: nat)
    ensures n <= |sessions|
    ensures n == 0 <==> forall s :: s in sessions ==> s.agentId != Some(agentId)
  {
    if sessions == [] then 0
    else (if sessions[0].agentId == Some(agentId) then 1 else 0) + SessionCount(sessions[1..], agentId)
  }

  /** Counting distributes over concatenated session lists. */
  lemma {:induction false} SessionCountAppend(a: seq<Session>, b: seq<Session>, agentId: string)
    ensures SessionCount(a + b, agentId) == SessionCount(a, agentId) + SessionCount(b, agentId)
  {
    if a == [] {
      assert a + b == b;
    } else {
      assert (a + b)[0] == a[0];
      assert (a + b)[1..] == a[1..] + b;
      SessionCountAppend(a[1..], b, agentId);
    }
  }

  /**
   * For a non-empty agent id the tab's count is the number of sessions the
   * sidebar groups under that agent.
   */
  lemma {:induction false} CountMatchesSidebar(sessions: seq<Session>, agentId: string)
    requires agentId != ""
    ensures SessionCount(sessions, agentId) == |Sidebar.SessionsOf(agentId, sessions)|
  {
    if sessions != [] {
      CountMatchesSidebar(sessions[1..], agentId);
    }
  }

  /** The counts of the agent tabs. */
  function TotalCount(sessions: seq<Session>, ids: seq<string>): nat {
    if ids == [] then 0 else SessionCount(sessions, ids[0]) + TotalCount(sessions, ids[1..])
  }

  /** How many of the ids one session is counted under. */
  function Hits(s: Session, ids: seq<string>): (n: nat)
    ensures n <= |ids|
  {
    if ids == [] then 0 else (if s.agentId == Some(ids[0]) then 1 else 0) + Hits(s, ids[1..])
  }

  lemma {:induction false} HitsDistinct(s: Session, ids: seq<string>)
    requires forall i, j :: 0 <= i < j < |ids| ==> ids[i] != ids[j]
    ensures Hits(s, ids) <= 1
    ensures s.agentId.None? || s.agentId.value !in ids ==> Hits(s, ids) == 0
  {
    if ids != [] {
      HitsDistinct(s, ids[1..]);
      if s.agentId == Some(ids[0]) {
        assert ids[0] !in ids[1..];
      }
    }
  }

  lemma {:induction false} TotalCountStep(s: Session, rest: seq<Session>, ids: seq<string>)
    ensures TotalCount([s] + rest, ids) == Hits(s, ids) + TotalCount(rest, ids)
  {
    if ids != [] {
      TotalCountStep(s, rest, ids[1..]);
      assert ([s] + rest)[1..] == rest;
    }
  }

  /**
   * The agent tabs' counts never add up to more than the "All" tab's count
   * (the total number of sessions) when the agent ids are distinct.
   */
  lemma {:induction false} CountsWithinTotal(sessions: seq<Session>, ids: seq<string>)
    requires forall i, j :: 0 <= i < j < |ids| ==> ids[i] != ids[j]
    ensures TotalCount(sessions, ids) <= |sessions|
  {
    if sessions != [] {
      assert sessions == [sessions[0]] + sessions[1..];
      TotalCountStep(sessions[0], sessions[1..], ids);
      HitsDistinct(sessions[0], ids);
      CountsWithinTotal(sessions[1..], ids);
    } else {
      TotalCountEmpty(ids);
    }
  }

  lemma {:induction false} TotalCountEmpty(ids: seq<string>)
    ensures TotalCount([], ids) == 0
  {
    if ids != [] { TotalCountEmpty(ids[1..]); }
  }
}

=== FILE: chat_types.dfy ===
/**
 * The records the client exchanges with the gateway: chat messages with their
 * content blocks, agents and sessions.
 */
module ChatTypes {
  import opened Wrappers

  datatype Role = User | Assistant | System

  /**
   * One content block of a message. The tool input is kept as its rendered
   * JSON text.
   */
  datatype Block =
    | TextBlock(text: string)
    | ThinkingBlock(text: string)
    | ToolUseBlock(name: string, input: string, toolId: string)
    | ToolResultBlock(content: string, toolUseId: string)

  /**
   * One conversation turn. `isArchived` marks a copy kept after the gateway
   * dropped the original; `isCompactionSeparator` marks the synthetic divider
   * placed between archived history and the live window. Both default to false.
   */
  datatype ChatMessage = ChatMessage(
    id: string,
    role: Role,
    content: string,
    timestamp: int,
    blocks: seq<Block>,
    isArchived: bool,
    isCompactionSeparator: bool)

  /** An agent as the gateway lists it; `name` and `emoji` come from its identity. */
  datatype Agent = Agent(
    id: string,
    name: Option<string>,
    emoji: Option<string>,
    model: Option<string>,
    isDefault: bool)

  /** A chat session; `agentId` and `updatedAt` may be absent. */
  datatype Session = Session(
    key: string,
    agentId: Option<string>,
    updatedAt: Option<int>,
    model: Option<string>)

  /** JavaScript truthiness of an optional string: present and non-empty. */
  predicate Truthy(s: Option<string>) {
    s.Some? && s.value != ""
  }

  /** The name an agent is shown under: its identity name, or its id when it has none. */
  function DisplayName(agent: Agent): (r: string)
    ensures Truthy(agent.name) ==> r == agent.name.value
    ensures !Truthy(agent.name) ==> r == agent.id
    ensures agent.id != "" ==> r != ""
  {
    if Truthy(agent.name) then agent.name.value else agent.id
  }
}

=== FILE: export_conversation.dfy ===
/**
 * exportAsMarkdown(messages, label?): a conversation as a Markdown document —
 * a title, then one section per message with its blocks rendered in order.
 */
module ExportConversation {
  import opened Wrappers
  import opened Text
  import opened ChatTypes

  /** Tool results longer than this are cut. */
  const MaxResultChars: nat := 2000
  const TruncationNote: string := "...(truncated)"
  const SeparatorText: string := "*Context compacted*"
  const ThinkingSummary: string := "💭 Thinking"

  function Title(sessionLabel: Option<string>): string {
    if Truthy(sessionLabel) then sessionLabel.value else "Conversation"
  }

  function RoleHeading(role: Role): string {
    match role
    case User => "### 👤 User"
    case Assistant => "### 🤖 Assistant"
    case System => "### ⚙️ System"
  }

  /** A tool result body, cut after `MaxResultChars` characters with a note on its own line. */
  function TruncateResult(content: string): (r: string)
    ensures |content| <= MaxResultChars ==> r == content
    ensures |content| > MaxResultChars ==>
      StartsWith(r, content[..MaxResultChars]) && Contains(r, TruncationNote)
  {
    if |content| > MaxResultChars then
      var r := content[..MaxResultChars] + "\n" + TruncationNote;
      ContainsSelf(TruncationNote);
      ContainsRight(content[..MaxResultChars] + "\n", TruncationNote, TruncationNote);
      r
    else content
  }

  function ToolHeading(name: string): string {
    "**🔧 Tool: `" + name + "`**"
  }

  function RenderBlock(b: Block): string {
    match b
    case TextBlock(text) => text
    case ThinkingBlock(text) =>
      "<details>\n<summary>" + ThinkingSummary + "</summary>\n\n" + text + "\n\n</details>"
    case ToolUseBlock(name, input, _) =>
      ToolHeading(name) + "\n\n```json\n" + input + "\n```"
    case ToolResultBlock(content, _) =>
      "**📋 Result:**\n\n```\n" + TruncateResult(content) + "\n```"
  }

  /** Sections laid end to end, each followed by `gap`. */
  function Concat(parts: seq<string>, gap: string): string {
    if parts == [] then "" else parts[0] + gap + Concat(parts[1..], gap)
  }

  /** Every section appears in the concatenation. */
  lemma {:induction false} ConcatContains(parts: seq<string>, gap: string, j: nat)
    requires j < |parts|
    ensures Contains(Concat(parts, gap), parts[j])
  {
    var rest := Concat(parts[1..], gap);
    if j == 0 {
      ContainsSelf(parts[0]);
      ContainsLeft(parts[0], gap, parts[0]);
      ContainsLeft(parts[0] + gap, rest, parts[0]);
    } else {
      assert parts[1..][j - 1] == parts[j];
      ConcatContains(parts[1..], gap, j - 1);
      ContainsRight(parts[0] + gap, rest, parts[j]);
    }
  }

  function RenderBlocks(bs: seq<Block>): string {
    Concat(seq(|bs|, i requires 0 <= i < |bs| => RenderBlock(bs[i])), "\n\n")
  }

  /** A message's body: its blocks, or its plain content when it has none. */
  function Body(m: ChatMessage): string {
    if m.blocks == [] then m.content else RenderBlocks(m.blocks)
  }

  function RenderMessage(m: ChatMessage): string {
    if m.isCompactionSeparator then "---\n\n" + SeparatorText + "\n\n---\n\n"
    else RoleHeading(m.role) + "\n\n" + Body(m) + "\n\n"
  }

  function RenderMessages(ms: seq<ChatMessage>): string {
    Concat(seq(|ms|, i requires 0 <= i < |ms| => RenderMessage(ms[i])), "")
  }

  /** exportAsMarkdown: a title heading, a blank line, then the rendered messages. */
  function ExportAsMarkdown(messages: seq<ChatMessage>, sessionLabel: Option<string>): (doc: string)
    ensures StartsWith(doc, "# " + Title(sessionLabel))
    ensures Contains(doc, RenderMessages(messages))
  {
    var title := "# " + Title(sessionLabel);
    assert StartsWith(title, title);
    StartsWithLeft(title, "\n\n", title);
    StartsWithLeft(title + "\n\n", RenderMessages(messages), title);
    ContainsSelf(RenderMessages(messages));
    ContainsRight(title + "\n\n", RenderMessages(messages), RenderMessages(messages));
    title + "\n\n" + RenderMessages(messages)
  }

  /** The document opens with the title: the sessionLabel when given, else 'Conversation'. */
  lemma ExportTitle(messages: seq<ChatMessage>, sessionLabel: Option<string>)
    ensures StartsWith(ExportAsMarkdown(messages, sessionLabel), "# " + Title(sessionLabel))
    ensures !Truthy(sessionLabel) ==> StartsWith(ExportAsMarkdown(messages, sessionLabel), "# Conversation")
    ensures Truthy(sessionLabel) ==> StartsWith(ExportAsMarkdown(messages, sessionLabel), "# " + sessionLabel.value)
  {
    var title := "# " + Title(sessionLabel);
    assert StartsWith(title, title);
    StartsWithLeft(title, "\n\n", title);
    StartsWithLeft(title + "\n\n", RenderMessages(messages), title);
    if !Truthy(sessionLabel) {
      assert title == "# Conversation";
    }
  }

  /** Every message's section appears in the document. */
  lemma RenderMessagesContains(ms: seq<ChatMessage>, i: nat)
    requires i < |ms|
    ensures Contains(RenderMessages(ms), RenderMessage(ms[i]))
  {
    var parts := seq(|ms|, k requires 0 <= k < |ms| => RenderMessage(ms[k]));
    assert parts[i] == RenderMessage(ms[i]);
    ConcatContains(parts, "", i);
  }

  lemma ExportContainsMessage(ms: seq<ChatMessage>, sessionLabel: Option<string>, i: nat)
    requires i < |ms|
    ensures Contains(ExportAsMarkdown(ms, sessionLabel), RenderMessage(ms[i]))
  {
    RenderMessagesContains(ms, i);
    ContainsRight("# " + Title(sessionLabel) + "\n\n", RenderMessages(ms), RenderMessage(ms[i]));
  }

  /** Every block of a message is rendered in its body. */
  lemma RenderBlocksContains(bs: seq<Block>, j: nat)
    requires j < |bs|
    ensures Contains(RenderBlocks(bs), RenderBlock(bs[j]))
  {
    var parts := seq(|bs|, k requires 0 <= k < |bs| => RenderBlock(bs[k]));
    assert parts[j] == RenderBlock(bs[j]);
    ConcatContains(parts, "\n\n", j);
  }

  /**
   * A regular message's section holds its role heading and its body: every
   * block when it has blocks, its plain content when it has none.
   */
  lemma MessageSection(m: ChatMessage)
    requires !m.isCompactionSeparator
    ensures Contains(RenderMessage(m), RoleHeading(m.role))
    ensures Contains(RenderMessage(m), Body(m))
    ensures m.blocks == [] ==> Contains(RenderMessage(m), m.content)
  {
    var heading := RoleHeading(m.role);
    var body := Body(m);
    assert RenderMessage(m) == heading + "\n\n" + body + "\n\n";
    ContainsSelf(heading);
    ContainsLeft(heading, "\n\n", heading);
    ContainsLeft(heading + "\n\n", body, heading);
    ContainsLeft(heading + "\n\n" + body, "\n\n", heading);
    ContainsMiddle(heading + "\n\n", body, "\n\n");
  }

  /** Every block of a regular message appears in its section. */
  lemma MessageSectionBlock(m: ChatMessage, j: nat)
    requires !m.isCompactionSeparator && j < |m.blocks|
    ensures Contains(RenderMessage(m), RenderBlock(m.blocks[j]))
  {
    MessageSection(m);
    RenderBlocksContains(m.blocks, j);
    ContainsTrans(RenderMessage(m), Body(m), RenderBlock(m.blocks[j]));
  }

  /** A compaction separator renders as a rule with the 'Context compacted' note. */
  lemma SeparatorSection(m: ChatMessage)
    requires m.isCompactionSeparator
    ensures StartsWith(RenderMessage(m), "---")
    ensures Contains(RenderMessage(m), SeparatorText)
  {
    var open := "---\n\n";
    var close := "\n\n---\n\n";
    assert RenderMessage(m) == open + SeparatorText + close;
    assert StartsWith(open, "---");
    StartsWithLeft(open, SeparatorText, "---");
    StartsWithLeft(open + SeparatorText, close, "---");
    ContainsMiddle(open, SeparatorText, close);
  }

  /** The fold's opening tag starts its first line. */
  lemma DetailsOpens()
    ensures StartsWith("<details>\n<summary>", "<details>")
  {
  }

  /** The fold's last line is its closing tag. */
  lemma DetailsCloses()
    ensures Contains("\n\n</details>", "</details>")
  {
    assert "\n\n</details>" == "\n\n" + "</details>";
    ContainsSelf("</details>");
    ContainsRight("\n\n", "</details>", "</details>");
  }

  /** The thinking fold: a details element with the thinking summary and the text. */
  lemma ThinkingShows(text: string)
    ensures StartsWith(RenderBlock(ThinkingBlock(text)), "<details>")
    ensures Contains(RenderBlock(ThinkingBlock(text)), ThinkingSummary)
    ensures Contains(RenderBlock(ThinkingBlock(text)), text)
    ensures Contains(RenderBlock(ThinkingBlock(text)), "</details>")
  {
    var open := "<details>\n<summary>";
    var mid := "</summary>\n\n";
    var close := "\n\n</details>";
    var head := open + ThinkingSummary + mid;
    var r := RenderBlock(ThinkingBlock(text));
    assert r == head + text + close;
    assert StartsWith(r, "<details>") by {
      DetailsOpens();
      StartsWithLeft(open, ThinkingSummary, "<details>");
      StartsWithLeft(open + ThinkingSummary, mid, "<details>");
      StartsWithLeft(head, text, "<details>");
      StartsWithLeft(head + text, close, "<details>");
    }
    assert Contains(r, ThinkingSummary) by {
      ContainsMiddle(open, ThinkingSummary, mid);
      ContainsLeft(head, text, ThinkingSummary);
      ContainsLeft(head + text, close, ThinkingSummary);
    }
    assert Contains(r, text) by {
      ContainsMiddle(head, text, close);
    }
    assert Contains(r, "</details>") by {
      DetailsCloses();
      ContainsRight(head + text, close, "</details>");
    }
  }

  /** A tool call opens with the tool heading and shows its input. */
  lemma ToolUseShows(name: string, input: string, toolId: string)
    ensures StartsWith(RenderBlock(ToolUseBlock(name, input, toolId)), ToolHeading(name))
    ensures Contains(RenderBlock(ToolUseBlock(name, input, toolId)), input)
  {
    var heading := ToolHeading(name);
    var open := "\n\n```json\n";
    var close := "\n```";
    assert RenderBlock(ToolUseBlock(name, input, toolId)) == heading + open + input + close;
    assert StartsWith(heading, heading);
    StartsWithLeft(heading, open, heading);
    StartsWithLeft(heading + open, input, heading);
    StartsWithLeft(heading + open + input, close, heading);
    ContainsMiddle(heading + open, input, close);
  }

  /** A tool result opens with the result marker and shows its (possibly cut) body. */
  lemma ToolResultShows(content: string, toolUseId: string)
    ensures StartsWith(RenderBlock(ToolResultBlock(content, toolUseId)), "**📋 Result:**")
    ensures Contains(RenderBlock(ToolResultBlock(content, toolUseId)), TruncateResult(content))
  {
    var body := TruncateResult(content);
    var open := "**📋 Result:**\n\n```\n";
    var close := "\n```";
    assert RenderBlock(ToolResultBlock(content, toolUseId)) == open + body + close;
    assert StartsWith(open, "**📋 Result:**");
    StartsWithLeft(open, body, "**📋 Result:**");
    StartsWithLeft(open + body, close, "**📋 Result:**");
    ContainsMiddle(open, body, close);
  }

  /** The truncation note is one short line. */
  lemma NoteIsOneLine()
    ensures '\n' !in TruncationNote && |TruncationNote| <= MaxResultChars
  {
  }

  /** Two newline-free parts joined by one newline split back into those two lines. */
  lemma TwoLinesBounded(cut: string, note: string)
    requires '\n' !in cut && '\n' !in note
    requires |cut| <= MaxResultChars && |note| <= MaxResultChars
    ensures forall k :: 0 <= k < |Split(cut + "\n" + note, '\n')| ==>
      |Split(cut + "\n" + note, '\n')[k]| <= MaxResultChars
  {
    assert cut + "\n" + note == cut + ['\n'] + note;
    SplitFirst(cut, '\n', note);
    SplitNone(note, '\n');
  }

  /**
   * Cutting keeps every line of a single-line tool result within
   * `MaxResultChars`: the body splits into at most the cut content and the
   * truncation note.
   */
  lemma TruncatedLinesBounded(content: string)
    requires '\n' !in content
    ensures forall k :: 0 <= k < |Split(TruncateResult(content), '\n')| ==>
      |Split(TruncateResult(content), '\n')[k]| <= MaxResultChars
  {
    if |content| > MaxResultChars {
      var cut := content[..MaxResultChars];
      assert '\n' !in cut by {
        forall k | 0 <= k < |cut| ensures cut[k] != '\n' {
          assert cut[k] == content[k];
        }
      }
      NoteIsOneLine();
      TwoLinesBounded(cut, TruncationNote);
    } else {
      SplitNone(content, '\n');
    }
  }

  /** A user message's heading and plain text both appear in the exported document. */
  lemma ExportShowsUserText(ms: seq<ChatMessage>, sessionLabel: Option<string>, i: nat)
    requires i < |ms| && !ms[i].isCompactionSeparator && ms[i].role == User && ms[i].blocks == []
    ensures Contains(ExportAsMarkdown(ms, sessionLabel), "### 👤 User")
    ensures Contains(ExportAsMarkdown(ms, sessionLabel), ms[i].content)
  {
    ExportContainsMessage(ms, sessionLabel, i);
    MessageSection(ms[i]);
    ContainsTrans(ExportAsMarkdown(ms, sessionLabel), RenderMessage(ms[i]), "### 👤 User");
    ContainsTrans(ExportAsMarkdown(ms, sessionLabel), RenderMessage(ms[i]), ms[i].content);
  }

  /** Every block of every regular message, and its role heading, appear in the document. */
  lemma ExportShowsBlock(ms: seq<ChatMessage>, sessionLabel: Option<string>, i: nat, j: nat)
    requires i < |ms| && !ms[i].isCompactionSeparator && j < |ms[i].blocks|
    ensures Contains(ExportAsMarkdown(ms, sessionLabel), RenderBlock(ms[i].blocks[j]))
    ensures Contains(ExportAsMarkdown(ms, sessionLabel), RoleHeading(ms[i].role))
  {
    ExportContainsMessage(ms, sessionLabel, i);
    MessageSection(ms[i]);
    MessageSectionBlock(ms[i], j);
    ContainsTrans(ExportAsMarkdown(ms, sessionLabel), RenderMessage(ms[i]), RenderBlock(ms[i].blocks[j]));
    ContainsTrans(ExportAsMarkdown(ms, sessionLabel), RenderMessage(ms[i]), RoleHeading(ms[i].role));
  }

  /** A compaction separator anywhere in the conversation shows the 'Context compacted' note. */
  lemma ExportShowsSeparator(ms: seq<ChatMessage>, sessionLabel: Option<string>, i: nat)
    requires i < |ms| && ms[i].isCompactionSeparator
    ensures Contains(ExportAsMarkdown(ms, sessionLabel), SeparatorText)
  {
    ExportContainsMessage(ms, sessionLabel, i);
    SeparatorSection(ms[i]);
    ContainsTrans(ExportAsMarkdown(ms, sessionLabel), RenderMessage(ms[i]), SeparatorText);
  }
}

=== FILE: focus_ring.dfy ===
/**
 * The wrap-around index arithmetic shared by keyboard navigation in the agent
 * list (ArrowDown/ArrowUp) and the agent tab strip (ArrowRight/ArrowLeft).
 */
module FocusRing {

  /** One step forward: `i < len - 1 ? i + 1 : 0`. */
  function NextIndex(i: int, len: nat): (r: int)
    ensures len > 0 && -1 <= i ==> 0 <= r < len
    ensures -1 <= i < len - 1 ==> r == i + 1
    ensures i >= len - 1 ==> r == 0
  {
    if i < len - 1 then i + 1 else 0
  }

  /**
   * One step back: `i > 0 ? i - 1 : len - 1`; from 0 or from "nothing
   * focused" (-1) it wraps to the end. From an index beyond the end of a list
   * that has since shrunk it only steps back by one.
   */
  function PrevIndex(i: int, len: nat): (r: int)
    ensures len > 0 && i <= len ==> 0 <= r < len
    ensures 0 < i ==> r == i - 1
    ensures i <= 0 ==> r == len - 1
  {
    if i > 0 then i - 1 else len - 1
  }

  /** Within range, stepping back undoes stepping forward and the other way round. */
  lemma StepsInverse(i: int, len: nat)
    requires 0 <= i < len
    ensures PrevIndex(NextIndex(i, len), len) == i
    ensures NextIndex(PrevIndex(i, len), len) == i
  {
  }

  /** `k` steps forward from `i`. */
  function StepForward(i: int, len: nat, k: nat): int {
    if k == 0 then i else NextIndex(StepForward(i, len, k - 1), len)
  }

  /** Below the end, each step forward moves one place. */
  lemma {:induction false} StepForwardUp(i: int, len: nat, k: nat)
    requires 0 <= i && i + k < len
    ensures StepForward(i, len, k) == i + k
  {
    if k > 0 {
      StepForwardUp(i, len, k - 1);
    }
  }

  lemma {:induction false} StepForwardCompose(i: int, len: nat, a: nat, b: nat)
    ensures StepForward(i, len, a + b) == StepForward(StepForward(i, len, a), len, b)
  {
    if b > 0 {
      StepForwardCompose(i, len, a, b - 1);
    }
  }

  /** Pressing forward `len` times comes back to where focus started. */
  lemma FullCycle(i: int, len: nat)
    requires 0 <= i < len
    ensures StepForward(i, len, len) == i
  {
    StepForwardUp(i, len, len - i - 1);
    assert StepForward(i, len, len - i) == 0;
    StepForwardCompose(i, len, len - i, i);
    if i > 0 {
      StepForwardUp(0, len, i);
    }
  }
}

=== FILE: i18n.dfy ===
/**
 * The runtime locale store: choosing the initial locale, switching locale
 * (persisting it and notifying subscribers), subscribing and unsubscribing,
 * and looking up a translated text with its fallbacks.
 *
 * The module-level mutable variables of the original (`currentLocale`,
 * `dict`, the listener set) are gathered into a `LocaleState` value; browser
 * storage, the build-time environment variable and the browser language
 * become parameters.
 */
module I18n {
  import opened Wrappers
  import opened Text
  import opened I18nCatalog

  const SupportedLocales: seq<string> := ["en", "fr"]
  const FallbackLocale: string := "en"

  predicate IsSupported(loc: string) {
    loc in SupportedLocales
  }

  /** `messages[loc]` for an own key of the catalogue object. */
  function Dictionary(loc: string): (d: Option<seq<string>>)
    ensures d.Some? <==> IsSupported(loc)
    ensures d.Some? ==> |d.value| == |Keys|
    ensures loc == FallbackLocale ==> d == Some(English)
  {
    if loc == "en" then Some(English)
    else if loc == "fr" then Some(French)
    else None
  }

  /** The first position of `x` in `s`. */
  function Position(s: seq<string>, x: string): (r: Option<nat>)
    ensures r.None? <==> x !in s
    ensures r.Some? ==> r.value < |s| && s[r.value] == x && x !in s[..r.value]
  {
    if s == [] then None
    else if s[0] == x then Some(0)
    else match Position(s[1..], x)
      case None => None
      case Some(i) =>
        assert s[1..][..i] == s[1..i + 1];
        Some(i + 1)
  }

  /** `values[key]`: the text a dictionary holds for a key, if any. */
  function Entry(values: seq<string>, key: string): (r: Option<string>)
    requires |values| == |Keys|
    ensures r.Some? <==> key in Keys
    ensures r.Some? ==> exists i :: 0 <= i < |Keys| && Keys[i] == key && r.value == values[i]
  {
    match Position(Keys, key)
    case None => None
    case Some(i) => Some(values[i])
  }

  /**
   * The state the original keeps in module variables: the current locale,
   * what browser storage holds, the subscribed listeners in subscription
   * order, and the log of listener calls made so far.
   */
  datatype LocaleState = LocaleState(current: string, stored: Option<string>, listeners: seq<nat>, notified: seq<nat>)

  /** `dict`: the current locale's dictionary, English when it has none. */
  function CurrentDictionary(current: string): (d: seq<string>)
    ensures |d| == |Keys|
    ensures IsSupported(current) ==> Some(d) == Dictionary(current)
  {
    Dictionary(current).GetOr(English)
  }

  /** t: the current dictionary's text, else the English text, else the key itself. */
  function T(current: string, key: string): (r: string)
    ensures key !in Keys ==> r == key
    ensures key in Keys ==> Entry(CurrentDictionary(current), key) == Some(r)
  {
    match Entry(CurrentDictionary(current), key)
    case Some(text) => text
    case None =>
      match Entry(English, key)
      case Some(text) => text
      case None => key
  }

  /** Both dictionaries are complete: a known key never falls back to English or to the key. */
  lemma TranslationComplete(loc: string, key: string)
    requires IsSupported(loc) && key in Keys
    ensures exists i :: 0 <= i < |Keys| && Keys[i] == key && T(loc, key) == Dictionary(loc).value[i]
  {
  }

  /** Any locale without a dictionary reads the English texts. */
  lemma UnsupportedReadsEnglish(loc: string, key: string)
    requires !IsSupported(loc)
    ensures T(loc, key) == T(FallbackLocale, key)
  {
  }

  /** The first part of a language tag: "fr-CA" gives "fr". */
  function PrimaryLanguage(tag: string): (r: string)
    ensures '-' !in r
    ensures StartsWith(tag, r)
  {
    JoinSplit(tag, '-');
    Split(tag, '-')[0]
  }

  /**
   * resolveInitialLocale: the stored locale, else the build-time locale, else
   * the browser's primary language, each only when it has a dictionary;
   * English otherwise. `navLanguage` is None when there is no navigator or it
   * reports no language.
   */
  function ResolveInitialLocale(stored: Option<string>, env: string, navLanguage: Option<string>): (r: string)
    ensures IsSupported(r)
    ensures stored.Some? && IsSupported(stored.value) ==> r == stored.value
    ensures !(stored.Some? && IsSupported(stored.value)) && IsSupported(env) ==> r == env
    ensures !(stored.Some? && IsSupported(stored.value)) && !IsSupported(env) ==>
      r == (if navLanguage.Some? && IsSupported(PrimaryLanguage(navLanguage.value))
            then PrimaryLanguage(navLanguage.value) else FallbackLocale)
  {
    if stored.Some? && stored.value != "" && IsSupported(stored.value) then stored.value
    else if env != "" && IsSupported(env) then env
    else if navLanguage.Some? && PrimaryLanguage(navLanguage.value) != ""
      && IsSupported(PrimaryLanguage(navLanguage.value)) then PrimaryLanguage(navLanguage.value)
    else FallbackLocale
  }

  /** The state at start-up: nothing subscribed, nobody notified. */
  function Initial(stored: Option<string>, env: string, navLanguage: Option<string>): (st: LocaleState)
    ensures IsSupported(st.current) && st.stored == stored
    ensures st.listeners == [] && st.notified == []
  {
    LocaleState(ResolveInitialLocale(stored, env, navLanguage), stored, [], [])
  }

  /**
   * setLocale: a locale without a dictionary, or the current one, changes
   * nothing; otherwise the locale switches, is persisted when storage
   * accepts it, and every listener is called once, in subscription order.
   */
  function SetLocale(st: LocaleState, loc: string, storageWorks: bool): (r: LocaleState)
    ensures !IsSupported(loc) || loc == st.current ==> r == st
    ensures IsSupported(loc) ==> r.current == loc
    ensures IsSupported(loc) && loc != st.current ==>
      && r.notified == st.notified + st.listeners
      && r.stored == (if storageWorks then Some(loc) else st.stored)
    ensures r.listeners == st.listeners
  {
    if !IsSupported(loc) || loc == st.current then st
    else
      st.(current := loc,
          stored := if storageWorks then Some(loc) else st.stored,
          notified := st.notified + st.listeners)
  }

  /** Switching to the locale already in use notifies nobody a second time. */
  lemma SetLocaleIdempotent(st: LocaleState, loc: string, storageWorks: bool)
    ensures SetLocale(SetLocale(st, loc, storageWorks), loc, storageWorks) == SetLocale(st, loc, storageWorks)
  {
  }

  /** The current locale always has a dictionary, from start-up through any switches. */
  lemma SetLocaleKeepsSupported(st: LocaleState, loc: string, storageWorks: bool)
    requires IsSupported(st.current)
    ensures IsSupported(SetLocale(st, loc, storageWorks).current)
  {
  }

  /** A persisted switch survives a reload: start-up then resolves to the chosen locale. */
  lemma PersistedLocaleSurvivesReload(st: LocaleState, loc: string, env: string, navLanguage: Option<string>)
    requires IsSupported(loc) && loc != st.current
    ensures Initial(SetLocale(st, loc, true).stored, env, navLanguage).current == loc
  {
  }

  /** After a switch, `t` reads the new locale's dictionary. */
  lemma SwitchChangesTexts(st: LocaleState, loc: string, storageWorks: bool, key: string)
    requires IsSupported(loc) && key in Keys
    ensures Some(T(SetLocale(st, loc, storageWorks).current, key)) == Entry(Dictionary(loc).value, key)
  {
  }

  // ---------------------------------------------------------------------------
  // Listeners

  predicate NoDuplicates(s: seq<nat>) {
    forall i, j :: 0 <= i < j < |s| ==> s[i] != s[j]
  }

  /** `Set.delete`: the listener list without `fn`, others in order. */
  function Remove(s: seq<nat>, fn: nat): (r: seq<nat>)
    ensures forall x :: x in r <==> x in s && x != fn
    ensures |r| <= |s|
    ensures NoDuplicates(s) ==> NoDuplicates(r)
  {
    if s == [] then []
    else if s[0] == fn then Remove(s[1..], fn)
    else
      var rest := Remove(s[1..], fn);
      assert NoDuplicates(s) ==> s[0] !in s[1..];
      [s[0]] + rest
  }

  /** onLocaleChange: `Set.add`, so a listener already subscribed keeps its place. */
  function OnLocaleChange(st: LocaleState, fn: nat): (r: LocaleState)
    ensures fn in r.listeners
    ensures forall x :: x in r.listeners <==> x in st.listeners || x == fn
    ensures fn in st.listeners ==> r == st
    ensures fn !in st.listeners ==> r.listeners == st.listeners + [fn]
    ensures NoDuplicates(st.listeners) ==> NoDuplicates(r.listeners)
    ensures r.current == st.current && r.stored == st.stored && r.notified == st.notified
  {
    if fn in st.listeners then st else st.(listeners := st.listeners + [fn])
  }

  /** Deleting keeps the order of the others: removal distributes over concatenation. */
  lemma {:induction false} RemoveAppend(a: seq<nat>, b: seq<nat>, fn: nat)
    ensures Remove(a + b, fn) == Remove(a, fn) + Remove(b, fn)
    decreases |a|
  {
    if a == [] {
      assert a + b == b;
    } else {
      var ab := a + b;
      assert ab[0] == a[0] && ab[1..] == a[1..] + b;
      RemoveAppend(a[1..], b, fn);
    }
  }

  /** A single listener is dropped exactly when it is `fn`. */
  lemma RemoveSingle(x: nat, fn: nat)
    ensures Remove([x], fn) == (if x == fn then [] else [x])
  {
    assert [x][1..] == [];
  }

  /** The function onLocaleChange returns: deletes the listener from the set. */
  function Unsubscribe(st: LocaleState, fn: nat): (r: LocaleState)
    ensures fn !in r.listeners
    ensures forall x :: x in r.listeners <==> x in st.listeners && x != fn
    ensures NoDuplicates(st.listeners) ==> NoDuplicates(r.listeners)
    ensures r.current == st.current && r.stored == st.stored && r.notified == st.notified
  {
    st.(listeners := Remove(st.listeners, fn))
  }

  lemma {:induction false} RemoveAbsent(s: seq<nat>, fn: nat)
    requires fn !in s
    ensures Remove(s, fn) == s
  {
    if s != [] {
      RemoveAbsent(s[1..], fn);
    }
  }

  lemma {:induction false} RemoveLast(s: seq<nat>, fn: nat)
    requires fn !in s
    ensures Remove(s + [fn], fn) == s
  {
    if s == [] {
      assert s + [fn] == [fn];
    } else {
      assert (s + [fn])[1..] == s[1..] + [fn];
      RemoveLast(s[1..], fn);
    }
  }

  /** Subscribing a new listener and then unsubscribing it restores the state. */
  lemma SubscribeThenUnsubscribe(st: LocaleState, fn: nat)
    requires fn !in st.listeners
    ensures Unsubscribe(OnLocaleChange(st, fn), fn) == st
  {
    RemoveLast(st.listeners, fn);
  }

  /** An unsubscribed listener is not called by a later switch. */
  lemma UnsubscribedNotNotified(st: LocaleState, fn: nat, loc: string, storageWorks: bool)
    ensures var after := SetLocale(Unsubscribe(st, fn), loc, storageWorks);
      fn !in after.notified[|st.notified|..]
  {
  }

  /** A subscribed listener is called exactly once by a switch to another supported locale. */
  lemma SubscribedNotifiedOnce(st: LocaleState, fn: nat, loc: string, storageWorks: bool)
    requires NoDuplicates(st.listeners) && fn in st.listeners
    requires IsSupported(loc) && loc != st.current
    ensures var calls := SetLocale(st, loc, storageWorks).notified[|st.notified|..];
      fn in calls && forall i, j :: 0 <= i < j < |calls| && calls[i] == fn ==> calls[j] != fn
  {
    var calls := SetLocale(st, loc, storageWorks).notified[|st.notified|..];
    assert calls == st.listeners;
  }

  // ---------------------------------------------------------------------------
  // Lookups through the catalogue object as written

  /**
   * The names every plain JavaScript object inherits from Object.prototype.
   * `messages[loc]` is truthy for these as well as for the own keys.
   */
  const InheritedNames: set<string> := {
    "constructor", "__proto__", "hasOwnProperty", "isPrototypeOf", "propertyIsEnumerable",
    "toLocaleString", "toString", "valueOf",
    "__defineGetter__", "__defineSetter__", "__lookupGetter__", "__lookupSetter__"
  }

  /** The dictionary test as written: `messages[loc]` is truthy. */
  predicate HasMessagesAsWritten(loc: string) {
    IsSupported(loc) || loc in InheritedNames
  }

  /** resolveInitialLocale with the test as written. */
  function ResolveInitialLocaleAsWritten(stored: Option<string>, env: string, navLanguage: Option<string>): (r: string)
    ensures HasMessagesAsWritten(r)
    ensures stored.Some? && HasMessagesAsWritten(stored.value) ==> r == stored.value
  {
    if stored.Some? && stored.value != "" && HasMessagesAsWritten(stored.value) then stored.value
    else if env != "" && HasMessagesAsWritten(env) then env
    else if navLanguage.Some? && PrimaryLanguage(navLanguage.value) != ""
      && HasMessagesAsWritten(PrimaryLanguage(navLanguage.value)) then PrimaryLanguage(navLanguage.value)
    else FallbackLocale
  }

  /** setLocale with the test as written. */
  function SetLocaleAsWritten(st: LocaleState, loc: string, storageWorks: bool): (r: LocaleState)
    ensures !HasMessagesAsWritten(loc) || loc == st.current ==> r == st
    ensures HasMessagesAsWritten(loc) ==> r.current == loc
  {
    if !HasMessagesAsWritten(loc) || loc == st.current then st
    else
      st.(current := loc,
          stored := if storageWorks then Some(loc) else st.stored,
          notified := st.notified + st.listeners)
  }

  /**
   * A stored value "toString" is taken as the locale: the locale then has no
   * dictionary, and every text silently reads as English.
   */
  lemma InheritedNameAcceptedAsWritten()
    ensures ResolveInitialLocaleAsWritten(Some("toString"), "", None) == "toString"
    ensures SetLocaleAsWritten(Initial(None, "", None), "constructor", true).current == "constructor"
    ensures !IsSupported("toString") && !IsSupported("constructor")
    ensures ResolveInitialLocale(Some("toString"), "", None) == FallbackLocale
    ensures SetLocale(Initial(None, "", None), "constructor", true) == Initial(None, "", None)
  {
    assert "toString" in InheritedNames;
    assert "constructor" in InheritedNames;
  }
}

=== FILE: i18n_catalog.dfy ===
/**
 * The two translation dictionaries, as three aligned sequences: entry `i` of
 * `English` and of `French` is the text for key `i` of `Keys`. French is
 * declared against the English key set, so both cover every key.
 */
module I18nCatalog {
  /** Every translation key, in declaration order. */
  const Keys: seq<string> := [
    "login.title",
    "login.subtitle",
    "login.gatewayUrl",
    "login.token",
    "login.tokenPlaceholder",
    "login.connect",
    "login.connecting",
    "login.showToken",
    "login.hideToken",
    "login.storedLocally",
    "login.wsHint",
    "header.title",
    "header.connected",
    "header.disconnected",
    "header.logout",
    "header.toggleSidebar",
    "header.changeLanguage",
    "header.soundOn",
    "header.soundOff",
    "chat.welcome",
    "chat.welcomeSub",
    "chat.loadingHistory",
    "chat.inputPlaceholder",
    "chat.inputLabel",
    "chat.attachFile",
    "chat.send",
    "chat.stop",
    "chat.showPreview",
    "chat.hidePreview",
    "chat.scrollToBottom",
    "chat.collapseTools",
    "chat.expandTools",
    "chat.messages",
    "chat.thinking",
    "sidebar.title",
    "sidebar.empty",
    "sidebar.startChat",
    "sidebar.search",
    "sidebar.noResults",
    "sidebar.pin",
    "sidebar.unpin",
    "sidebar.pinned",
    "sidebar.delete",
    "sidebar.deleteConfirm",
    "sidebar.deleteCancel",
    "sidebar.openSplit",
    "sidebar.close",
    "sidebar.clearSearch",
    "split.close",
    "app.mainChat",
    "app.splitPane",
    "app.skipToChat",
    "thinking.label",
    "thinking.reasoning",
    "tool.parameters",
    "tool.result",
    "connection.reconnecting",
    "connection.reconnected",
    "message.copy",
    "message.copied",
    "message.retry",
    "message.metadata",
    "message.rawJson",
    "message.hideRawJson",
    "time.yesterday",
    "time.today",
    "shortcuts.title",
    "shortcuts.send",
    "shortcuts.newline",
    "shortcuts.search",
    "shortcuts.switchSession",
    "shortcuts.closeSidebar",
    "shortcuts.stop",
    "shortcuts.help",
    "shortcuts.close",
    "shortcuts.chatSection",
    "error.title",
    "error.description",
    "error.retry",
    "error.reload",
    "shortcuts.navigationSection",
    "shortcuts.generalSection",
    "header.export",
    "theme.title",
    "theme.mode",
    "theme.accent",
    "theme.system",
    "theme.dark",
    "theme.light",
    "theme.oled",
    "search.placeholder",
    "search.noResults",
    "search.prev",
    "search.next",
    "shortcuts.searchMessages",
    "sidebar.agents",
    "sidebar.allAgents",
    "sidebar.newSession",
    "sidebar.newSessionFor",
    "sidebar.newAgent",
    "sidebar.newAgentTitle",
    "sidebar.agentId",
    "sidebar.agentIdPlaceholder",
    "sidebar.agentName",
    "sidebar.agentNamePlaceholder",
    "sidebar.agentEmoji",
    "sidebar.agentEmojiPlaceholder",
    "sidebar.create",
    "sidebar.cancel",
    "sidebar.creating",
    "sidebar.deleteAgent",
    "sidebar.deleteAgentConfirm",
    "sidebar.deleting"
  ]

  /** The English texts (`en`). */
  const English: seq<string> := [
    "PinchChat",
    "Connect to your OpenClaw gateway",
    "Gateway URL",
    "Token",
    "Enter your gateway token",
    "Connect",
    "Connecting…",
    "Show token",
    "Hide token",
    "Credentials are stored locally in your browser",
    "URL must start with ws:// or wss://",
    "PinchChat",
    "Connected",
    "Disconnected",
    "Logout",
    "Toggle sidebar",
    "Change language",
    "Enable notification sound",
    "Disable notification sound",
    "PinchChat",
    "Send a message to get started",
    "Loading messages…",
    "Type a message…",
    "Message",
    "Attach file",
    "Send",
    "Stop",
    "Preview markdown",
    "Hide preview",
    "New messages",
    "Collapse all tools",
    "Expand all tools",
    "Chat messages",
    "Thinking…",
    "Chats",
    "No chats yet",
    "Click an agent to start chatting",
    "Search agents…",
    "No matching agents",
    "Pin session",
    "Unpin session",
    "Pinned",
    "Delete session",
    "Delete this session? This cannot be undone.",
    "Cancel",
    "Open in split view",
    "Close sidebar",
    "Clear search",
    "Close split view",
    "Main chat",
    "Split pane",
    "Skip to chat input",
    "Thinking",
    "Reasoning…",
    "Parameters",
    "Result",
    "Connection lost — reconnecting…",
    "Reconnected!",
    "Copy message",
    "Copied!",
    "Resend message",
    "Message details",
    "Raw JSON",
    "Hide raw JSON",
    "Yesterday",
    "Today",
    "Keyboard Shortcuts",
    "Send message",
    "New line",
    "Search sessions",
    "Previous / next session",
    "Close sidebar / search",
    "Stop generation",
    "Show shortcuts",
    "Close",
    "Chat",
    "Something went wrong",
    "An unexpected error occurred while rendering the interface. You can try again or reload the page.",
    "Try again",
    "Reload page",
    "Navigation",
    "General",
    "Export conversation as Markdown",
    "Theme",
    "Mode",
    "Accent",
    "System",
    "Dark",
    "Light",
    "OLED",
    "Search messages…",
    "0 results",
    "Previous match",
    "Next match",
    "Search messages",
    "Agents",
    "All",
    "New session",
    "New session for {agent}",
    "New agent",
    "Create New Agent",
    "Agent ID",
    "e.g. researcher",
    "Display Name",
    "e.g. Research Assistant",
    "Emoji",
    "e.g. 🔍",
    "Create",
    "Cancel",
    "Creating…",
    "Delete agent",
    "Delete this agent? This will remove it from your configuration.",
    "Deleting…"
  ]

  /** The French texts (`fr`). */
  const French: seq<string> := [
    "PinchChat",
    "Connectez-vous à votre gateway OpenClaw",
    "URL de la gateway",
    "Token",
    "Entrez votre token gateway",
    "Connexion",
    "Connexion…",
    "Afficher le token",
    "Masquer le token",
    "Les identifiants sont stockés localement dans votre navigateur",
    "L'URL doit commencer par ws:// ou wss://",
    "PinchChat",
    "Connecté",
    "Déconnecté",
    "Déconnexion",
    "Afficher/masquer la barre latérale",
    "Changer de langue",
    "Activer le son de notification",
    "Désactiver le son de notification",
    "PinchChat",
    "Envoyez un message pour commencer",
    "Chargement des messages…",
    "Tapez un message…",
    "Message",
    "Joindre un fichier",
    "Envoyer",
    "Arrêter",
    "Aperçu markdown",
    "Masquer l'aperçu",
    "Nouveaux messages",
    "Replier tous les outils",
    "Déplier tous les outils",
    "Messages du chat",
    "Réflexion…",
    "Conversations",
    "Aucune conversation",
    "Cliquez sur un agent pour commencer",
    "Rechercher des agents…",
    "Aucun agent trouvé",
    "Épingler la session",
    "Désépingler la session",
    "Épinglées",
    "Supprimer la session",
    "Supprimer cette session ? Cette action est irréversible.",
    "Annuler",
    "Ouvrir en vue scindée",
    "Fermer la barre latérale",
    "Effacer la recherche",
    "Fermer la vue scindée",
    "Chat principal",
    "Volet scindé",
    "Aller au champ de saisie",
    "Réflexion",
    "Réflexion…",
    "Paramètres",
    "Résultat",
    "Connexion perdue — reconnexion…",
    "Reconnecté !",
    "Copier le message",
    "Copié !",
    "Renvoyer le message",
    "Détails du message",
    "JSON brut",
    "Masquer le JSON brut",
    "Hier",
    "Aujourd'hui",
    "Raccourcis clavier",
    "Envoyer le message",
    "Nouvelle ligne",
    "Rechercher des sessions",
    "Session précédente / suivante",
    "Fermer la barre / recherche",
    "Arrêter la génération",
    "Afficher les raccourcis",
    "Fermer",
    "Chat",
    "Quelque chose s'est mal passé",
    "Une erreur inattendue est survenue lors de l'affichage. Vous pouvez réessayer ou recharger la page.",
    "Réessayer",
    "Recharger",
    "Navigation",
    "Général",
    "Exporter la conversation en Markdown",
    "Thème",
    "Mode",
    "Accent",
    "Système",
    "Sombre",
    "Clair",
    "OLED",
    "Rechercher dans les messages…",
    "0 résultat",
    "Résultat précédent",
    "Résultat suivant",
    "Rechercher dans les messages",
    "Agents",
    "Tous",
    "Nouvelle session",
    "Nouvelle session pour {agent}",
    "Nouvel agent",
    "Créer un nouvel agent",
    "ID de l'agent",
    "ex. chercheur",
    "Nom d'affichage",
    "ex. Assistant de recherche",
    "Emoji",
    "ex. 🔍",
    "Créer",
    "Annuler",
    "Création…",
    "Supprimer l'agent",
    "Supprimer cet agent ? Il sera retiré de votre configuration.",
    "Suppression…"
  ]
}

=== FILE: image.dfy ===
/**
 * buildImageSrc(mime, data?, url?): the `src` for an image block — the URL
 * when there is one, otherwise a base64 data URL, otherwise empty.
 */
module Image {
  import opened Wrappers
  import opened Text
  import opened ChatTypes

  const DataPrefix: string := "data:"
  const Base64Marker: string := ";base64,"

  function BuildImageSrc(mime: string, data: Option<string>, url: Option<string>): (src: string)
    ensures Truthy(url) ==> src == url.value
    ensures !Truthy(url) && Truthy(data) ==> StartsWith(src, DataPrefix + mime + Base64Marker)
    ensures !Truthy(url) && !Truthy(data) ==> src == ""
  {
    if Truthy(url) then url.value
    else if Truthy(data) then DataPrefix + mime + Base64Marker + data.value
    else ""
  }

  /** Reads a base64 data URL back into its MIME type and payload. */
  function ParseDataUrl(src: string): Option<(string, string)> {
    if !StartsWith(src, DataPrefix) then None
    else
      var rest := src[|DataPrefix|..];
      match IndexOf(rest, ';')
      case None => None
      case Some(i) =>
        if StartsWith(rest[i..], Base64Marker) then Some((rest[..i], rest[i + |Base64Marker|..]))
        else None
  }

  /** A prefix glued onto a string is a prefix of the result, and cutting it off gives the string back. */
  lemma PrefixParts(p: string, rest: string)
    ensures StartsWith(p + rest, p) && (p + rest)[|p|..] == rest
  {
    assert (p + rest)[..|p|] == p;
  }

  /** In "<mime><marker><data>", the first ';' is the marker's own when the MIME type has none. */
  lemma MarkerFound(mime: string, marker: string, data: string)
    requires ';' !in mime && |marker| > 0 && marker[0] == ';'
    ensures IndexOf(mime + marker + data, ';') == Some(|mime|)
    ensures (mime + marker + data)[..|mime|] == mime
    ensures (mime + marker + data)[|mime|..] == marker + data
  {
    var rest := mime + marker + data;
    assert rest[..|mime|] == mime;
    assert rest[|mime|..] == marker + data;
    IndexOfAt(rest, ';', |mime|);
  }

  /**
   * A data URL built from base64 data parses back into the same MIME type and
   * payload (for MIME types without ';', which image types never contain).
   */
  lemma DataUrlRoundTrip(mime: string, data: string)
    requires ';' !in mime && data != ""
    ensures ParseDataUrl(BuildImageSrc(mime, Some(data), None)) == Some((mime, data))
  {
    var rest := mime + Base64Marker + data;
    assert BuildImageSrc(mime, Some(data), None) == DataPrefix + rest;
    PrefixParts(DataPrefix, rest);
    MarkerFound(mime, Base64Marker, data);
    PrefixParts(Base64Marker, data);
  }

  lemma Scenarios()
    ensures BuildImageSrc("image/png", None, Some("https://example.com/img.png")) == "https://example.com/img.png"
    ensures BuildImageSrc("image/png", Some("abc123"), Some("https://example.com/img.png")) == "https://example.com/img.png"
    ensures BuildImageSrc("image/png", Some("abc123"), None) == "data:image/png;base64,abc123"
    ensures BuildImageSrc("image/jpeg", Some("xyz"), None) == "data:image/jpeg;base64,xyz"
    ensures BuildImageSrc("image/png", None, None) == ""
    ensures BuildImageSrc("image/webp", None, None) == ""
  {
  }
}

=== FILE: message_cache.dfy ===
/**
 * History reconciliation: merging the gateway's current message window with
 * the locally cached conversation so that messages the gateway compacted away
 * stay visible as archived history.
 */
module MessageCache {
  import opened ChatTypes

  datatype MergeResult = MergeResult(messages: seq<ChatMessage>, wasCompacted: bool)

  /** The ids occurring in a sequence of messages. */
  function IdSet(ms: seq<ChatMessage>): set<string> {
    set m | m in ms :: m.id
  }

  /** No id occurs twice. */
  predicate UniqueIds(ms: seq<ChatMessage>) {
    forall i, j :: 0 <= i < j < |ms| ==> ms[i].id != ms[j].id
  }

  /**
   * The cached messages whose id the gateway no longer reports, in their
   * cached order.
   */
  function Missing(gateway: seq<ChatMessage>, cached: seq<ChatMessage>): (r: seq<ChatMessage>)
    ensures |r| <= |cached|
    ensures forall m :: m in r <==> m in cached && m.id !in IdSet(gateway)
  {
    if cached == [] then []
    else
      var rest := Missing(gateway, cached[1..]);
      if cached[0].id in IdSet(gateway) then rest else [cached[0]] + rest
  }

  /** An archived copy: the same record with `isArchived` set. */
  function Archive(m: ChatMessage): ChatMessage {
    m.(isArchived := true)
  }

  function ArchiveAll(ms: seq<ChatMessage>): (r: seq<ChatMessage>)
    ensures |r| == |ms|
    ensures forall i :: 0 <= i < |ms| ==> r[i] == Archive(ms[i])
  {
    seq(|ms|, i requires 0 <= i < |ms| => Archive(ms[i]))
  }

  /** The synthetic divider record: no content, no blocks, never archived. */
  function Separator(sepId: string, timestamp: int): ChatMessage {
    ChatMessage(sepId, System, "", timestamp, [], false, true)
  }

  /**
   * The separator sits just before the first surviving gateway message; with
   * an empty gateway window the caller's `fallbackTs` is used.
   */
  function SeparatorTimestamp(gateway: seq<ChatMessage>, fallbackTs: int): int {
    if |gateway| > 0 then gateway[0].timestamp - 1 else fallbackTs
  }

  /**
   * mergeWithCache(gateway, cached). When every cached id is still reported by
   * the gateway the window passes through unchanged; otherwise the dropped
   * cached messages are returned archived, then one separator, then the window.
   * `sepId` is the separator's id and `fallbackTs` its timestamp when the
   * window is empty.
   */
  function MergeWithCache(gateway: seq<ChatMessage>, cached: seq<ChatMessage>,
                          sepId: string, fallbackTs: int): (r: MergeResult)
    ensures r.wasCompacted <==> exists m :: m in cached && m.id !in IdSet(gateway)
    ensures !r.wasCompacted ==> r.messages == gateway
    ensures r.wasCompacted ==>
      var missing := Missing(gateway, cached);
      var k := |missing|;
      && |r.messages| == k + 1 + |gateway|
      && (forall i :: 0 <= i < k ==>
            r.messages[i].id == missing[i].id && r.messages[i].isArchived
            && r.messages[i].(isArchived := missing[i].isArchived) == missing[i])
      && r.messages[k].isCompactionSeparator && !r.messages[k].isArchived
      && r.messages[k].id == sepId
      && r.messages[k].content == "" && r.messages[k].blocks == []
      && (|gateway| > 0 ==> r.messages[k].timestamp == gateway[0].timestamp - 1)
      && r.messages[k + 1..] == gateway
  {
    var missing := Missing(gateway, cached);
    if |missing| == 0 then
      MergeResult(gateway, false)
    else
      assert missing[0] in cached && missing[0].id !in IdSet(gateway);
      MergeResult(ArchiveAll(missing) + [Separator(sepId, SeparatorTimestamp(gateway, fallbackTs))] + gateway, true)
  }

  /**
   * Step 1 and 2 of the algorithm as loops: collect the gateway's ids, then
   * keep the cached messages whose id is not among them.
   */
  method CollectMissing(gateway: seq<ChatMessage>, cached: seq<ChatMessage>) returns (missing: seq<ChatMessage>)
    ensures missing == Missing(gateway, cached)
  {
    var ids: set<string> := {};
    var i := 0;
    while i < |gateway|
      invariant 0 <= i <= |gateway|
      invariant ids == IdSet(gateway[..i])
    {
      assert gateway[..i + 1] == gateway[..i] + [gateway[i]];
      ids := ids + {gateway[i].id};
      i := i + 1;
    }
    assert gateway[..i] == gateway;
    missing := [];
    var j := 0;
    while j < |cached|
      invariant 0 <= j <= |cached|
      invariant missing == Missing(gateway, cached[..j])
    {
      assert cached[..j + 1] == cached[..j] + [cached[j]];
      MissingAppend(gateway, cached[..j], [cached[j]]);
      if cached[j].id !in ids {
        missing := missing + [cached[j]];
      }
      j := j + 1;
    }
    assert cached[..j] == cached;
  }

  /** Missing keeps order: it distributes over concatenation of the cache. */
  lemma {:induction false} MissingAppend(gateway: seq<ChatMessage>, a: seq<ChatMessage>, b: seq<ChatMessage>)
    ensures Missing(gateway, a + b) == Missing(gateway, a) + Missing(gateway, b)
  {
    if a != [] {
      assert (a + b)[0] == a[0];
      assert (a + b)[1..] == a[1..] + b;
      MissingAppend(gateway, a[1..], b);
    } else {
      assert a + b == b;
    }
  }

  /** An empty cache leaves the gateway window as it is. */
  lemma MergeEmptyCache(gateway: seq<ChatMessage>, sepId: string, fallbackTs: int)
    ensures MergeWithCache(gateway, [], sepId, fallbackTs) == MergeResult(gateway, false)
  {
  }

  /** Merging a sequence with itself changes nothing: no re-archival, no separator. */
  lemma MergeSelf(ms: seq<ChatMessage>, sepId: string, fallbackTs: int)
    ensures MergeWithCache(ms, ms, sepId, fallbackTs) == MergeResult(ms, false)
  {
  }

  /** A gateway window that only grew at the end is passed through. */
  lemma MergeAppendOnly(cached: seq<ChatMessage>, newer: seq<ChatMessage>, sepId: string, fallbackTs: int)
    ensures MergeWithCache(cached + newer, cached, sepId, fallbackTs) == MergeResult(cached + newer, false)
  {
    assert forall m :: m in cached ==> m in cached + newer;
  }

  lemma IdSetAppend(a: seq<ChatMessage>, b: seq<ChatMessage>)
    ensures IdSet(a + b) == IdSet(a) + IdSet(b)
  {
    assert forall m :: m in a + b <==> m in a || m in b;
  }

  lemma IdSetArchiveAll(ms: seq<ChatMessage>)
    ensures IdSet(ArchiveAll(ms)) == IdSet(ms)
  {
    var r := ArchiveAll(ms);
    forall x | x in IdSet(ms) ensures x in IdSet(r) {
      var n :| 0 <= n < |ms| && ms[n].id == x;
      assert r[n] in r;
    }
    forall x | x in IdSet(r) ensures x in IdSet(ms) {
      var n :| 0 <= n < |r| && r[n].id == x;
      assert ms[n] in ms;
    }
  }

  /** The missing ids are the cached ids the gateway does not report. */
  lemma MissingIds(gateway: seq<ChatMessage>, cached: seq<ChatMessage>)
    ensures IdSet(Missing(gateway, cached)) == IdSet(cached) - IdSet(gateway)
  {
    var missing := Missing(gateway, cached);
    forall x | x in IdSet(cached) - IdSet(gateway) ensures x in IdSet(missing) {
      var c :| c in cached && c.id == x;
      assert c in missing;
    }
  }

  /** The ids of "archived part, separator, window". */
  lemma ThreePartIds(a: seq<ChatMessage>, sep: ChatMessage, g: seq<ChatMessage>)
    ensures IdSet(a + [sep] + g) == IdSet(a) + {sep.id} + IdSet(g)
  {
    IdSetAppend(a, [sep]);
    IdSetAppend(a + [sep], g);
    assert IdSet([sep]) == {sep.id};
  }

  /** Gluing id-disjoint parts with unique ids around a fresh separator keeps ids unique. */
  lemma ThreePartUnique(a: seq<ChatMessage>, sep: ChatMessage, g: seq<ChatMessage>)
    requires UniqueIds(a) && UniqueIds(g)
    requires IdSet(a) !! IdSet(g) && sep.id !in IdSet(a) && sep.id !in IdSet(g)
    ensures UniqueIds(a + [sep] + g)
  {
    var out := a + [sep] + g;
    var k := |a|;
    forall i, j | 0 <= i < j < |out|
      ensures out[i].id != out[j].id
    {
      if j < k {
        assert out[i] == a[i] && out[j] == a[j];
      } else if j == k {
        assert out[i] == a[i] && a[i].id in IdSet(a);
      } else if i < k {
        assert out[i] == a[i] && a[i].id in IdSet(a);
        assert out[j] == g[j - k - 1] && g[j - k - 1].id in IdSet(g);
      } else if i == k {
        assert out[j] == g[j - k - 1] && g[j - k - 1].id in IdSet(g);
      } else {
        assert out[i] == g[i - k - 1] && out[j] == g[j - k - 1];
      }
    }
  }

  /** Archiving keeps ids unique. */
  lemma ArchiveAllUnique(ms: seq<ChatMessage>)
    requires UniqueIds(ms)
    ensures UniqueIds(ArchiveAll(ms))
  {
  }

  /**
   * Nothing is lost and nothing is invented: the merged ids are exactly the
   * cached ids, the gateway ids and, after a compaction, the separator id.
   */
  lemma MergeIds(gateway: seq<ChatMessage>, cached: seq<ChatMessage>, sepId: string, fallbackTs: int)
    ensures var r := MergeWithCache(gateway, cached, sepId, fallbackTs);
      IdSet(r.messages) == IdSet(cached) + IdSet(gateway) + (if r.wasCompacted then {sepId} else {})
  {
    var r := MergeWithCache(gateway, cached, sepId, fallbackTs);
    var missing := Missing(gateway, cached);
    MissingIds(gateway, cached);
    if |missing| == 0 {
      assert IdSet(missing) == {};
      assert r.messages == gateway && !r.wasCompacted;
    } else {
      var sep := Separator(sepId, SeparatorTimestamp(gateway, fallbackTs));
      assert r.messages == ArchiveAll(missing) + [sep] + gateway && r.wasCompacted;
      ThreePartIds(ArchiveAll(missing), sep, gateway);
      IdSetArchiveAll(missing);
    }
  }

  /**
   * Ids stay unique: with unique ids in each input and a separator id used by
   * neither, the merged sequence has unique ids.
   */
  lemma MergeUniqueIds(gateway: seq<ChatMessage>, cached: seq<ChatMessage>, sepId: string, fallbackTs: int)
    requires UniqueIds(gateway) && UniqueIds(cached)
    requires sepId !in IdSet(gateway) && sepId !in IdSet(cached)
    ensures UniqueIds(MergeWithCache(gateway, cached, sepId, fallbackTs).messages)
  {
    var r := MergeWithCache(gateway, cached, sepId, fallbackTs);
    var missing := Missing(gateway, cached);
    if |missing| > 0 {
      var sep := Separator(sepId, SeparatorTimestamp(gateway, fallbackTs));
      assert r.messages == ArchiveAll(missing) + [sep] + gateway;
      MissingUniqueIds(gateway, cached);
      ArchiveAllUnique(missing);
      MissingIds(gateway, cached);
      IdSetArchiveAll(missing);
      ThreePartUnique(ArchiveAll(missing), sep, gateway);
    }
  }

  /** The missing messages inherit unique ids from the cache. */
  lemma {:induction false} MissingUniqueIds(gateway: seq<ChatMessage>, cached: seq<ChatMessage>)
    requires UniqueIds(cached)
    ensures UniqueIds(Missing(gateway, cached))
  {
    if cached != [] {
      var rest := Missing(gateway, cached[1..]);
      MissingUniqueIds(gateway, cached[1..]);
      if cached[0].id !in IdSet(gateway) {
        forall m | m in rest
          ensures m.id != cached[0].id
        {
          var n :| 1 <= n < |cached| && cached[n] == m;
        }
      }
    }
  }

  /**
   * History survives repeated refreshes: when the result of one merge is fed
   * back as the cache of the next, every id of the first cache is still there.
   */
  lemma HistoryKeptAcrossRefreshes(g1: seq<ChatMessage>, g2: seq<ChatMessage>, cached: seq<ChatMessage>,
                                   sep1: string, sep2: string, ts1: int, ts2: int)
    ensures var r1 := MergeWithCache(g1, cached, sep1, ts1);
      var r2 := MergeWithCache(g2, r1.messages, sep2, ts2);
      IdSet(cached) + IdSet(g1) + IdSet(g2) <= IdSet(r2.messages)
  {
    var r1 := MergeWithCache(g1, cached, sep1, ts1);
    MergeIds(g1, cached, sep1, ts1);
    MergeIds(g2, r1.messages, sep2, ts2);
  }

  /** A plain live message as the gateway reports it. */
  function Live(id: string, role: Role, timestamp: int): ChatMessage {
    ChatMessage(id, role, "msg-" + id, timestamp, [], false, false)
  }

  /** Three cached messages, the gateway keeps only the newest: two archived, a separator, the live one. */
  lemma CompactionScenario(sepId: string, fallbackTs: int)
    ensures var old1 := Live("old1", User, 1000);
      var old2 := Live("old2", Assistant, 2000);
      var current := Live("new1", User, 5000);
      var r := MergeWithCache([current], [old1, old2, current], sepId, fallbackTs);
      && r.wasCompacted
      && |r.messages| == 4
      && r.messages[0].id == "old1" && r.messages[0].isArchived
      && r.messages[1].id == "old2" && r.messages[1].isArchived
      && r.messages[2].isCompactionSeparator
      && r.messages[2].timestamp == 4999
      && r.messages[3] == current
  {
    var old1 := Live("old1", User, 1000);
    var old2 := Live("old2", Assistant, 2000);
    var current := Live("new1", User, 5000);
    assert IdSet([current]) == {"new1"};
    assert Missing([current], [current]) == [];
    assert Missing([current], [old2, current]) == [old2];
    assert Missing([current], [old1, old2, current]) == [old1, old2];
  }

  /** An empty gateway window with a non-empty cache: the archived message and a separator. */
  lemma EmptyGatewayScenario(sepId: string, fallbackTs: int)
    ensures var stale := Live("old", User, 1000);
      var r := MergeWithCache([], [stale], sepId, fallbackTs);
      && r.wasCompacted
      && |r.messages| == 2
      && r.messages[0].id == "old" && r.messages[0].isArchived
      && r.messages[1].isCompactionSeparator
  {
    var stale := Live("old", User, 1000);
    assert Missing([], [stale]) == [stale];
  }
}

=== FILE: server.dfy ===
/**
 * The small HTTP backend: provisioning an agent into the OpenClaw
 * configuration (POST /api/agents), removing one (DELETE /api/agents), the
 * CORS preflight, and serving the built front end with a single-page-app
 * fallback and a content type taken from the file extension.
 *
 * The configuration file is a value read before and written after a request;
 * the filesystem calls that create directories and write SOUL.md are recorded
 * as a list of effects; which static files exist and can be read are
 * parameters.
 */
module Server {
  import opened Wrappers

  // ---------------------------------------------------------------------------
  // Configuration file

  /** One agent of `agents.list`; optional members are absent from the JSON when None. */
  datatype Entry = Entry(
    id: string,
    workspace: string,
    agentDir: string,
    identityName: Option<string>,
    model: Option<string>,
    toolsAllow: Option<seq<string>>)

  /** The `agents` object; `others` stands for its members this server never touches. */
  datatype AgentsSection = AgentsSection(list: Option<seq<Entry>>, others: string)

  /** openclaw.json; `others` stands for the top-level members this server never touches. */
  datatype Config = Config(agents: Option<AgentsSection>, others: string)

  /** Reading and parsing openclaw.json either yields the configuration or throws. */
  datatype ConfigRead = Readable(config: Config) | Unreadable(message: string)

  /** The fields of a request body; a field missing from the JSON is None. */
  datatype AgentRequest = AgentRequest(
    id: Option<string>,
    name: Option<string>,
    model: Option<string>,
    soulMd: Option<string>,
    skills: Option<seq<string>>)

  /** A request body either parses as JSON or the parser throws. */
  datatype Body = Json(fields: AgentRequest) | Malformed(message: string)

  predicate Truthy(s: Option<string>) {
    s.Some? && s.value != ""
  }

  /** The agents the configuration lists; none when `agents` or `agents.list` is missing. */
  function AgentList(c: Config): seq<Entry> {
    if c.agents.Some? && c.agents.value.list.Some? then c.agents.value.list.value else []
  }

  function WorkspaceDir(openclawDir: string, id: string): string {
    openclawDir + "/workspace-" + id
  }

  function AgentDir(openclawDir: string, id: string): string {
    openclawDir + "/agents/" + id + "/agent"
  }

  predicate HasAgent(list: seq<Entry>, id: string) {
    exists i :: 0 <= i < |list| && list[i].id == id
  }

  /** The entry written for a new agent: paths always, identity, model and tools only when given. */
  function NewEntry(openclawDir: string, id: string, name: Option<string>, model: Option<string>, skills: Option<seq<string>>): (e: Entry)
    ensures e.id == id
    ensures e.workspace == WorkspaceDir(openclawDir, id) && e.agentDir == AgentDir(openclawDir, id)
    ensures e.identityName.Some? <==> Truthy(name)
    ensures e.model.Some? <==> Truthy(model)
    ensures e.toolsAllow.Some? <==> skills.Some? && |skills.value| > 0
    ensures e.identityName.Some? ==> e.identityName == name
    ensures e.model.Some? ==> e.model == model
    ensures e.toolsAllow.Some? ==> e.toolsAllow == skills
  {
    Entry(id, WorkspaceDir(openclawDir, id), AgentDir(openclawDir, id),
      if Truthy(name) then name else None,
      if Truthy(model) then model else None,
      if skills.Some? && |skills.value| > 0 then skills else None)
  }

  /** The configuration with the list in place, creating `agents` and `agents.list` when missing. */
  function WithList(c: Config, list: seq<Entry>): (r: Config)
    ensures AgentList(r) == list
    ensures r.others == c.others
    ensures c.agents.Some? ==> r.agents.Some? && r.agents.value.others == c.agents.value.others
  {
    var section := c.agents.GetOr(AgentsSection(None, ""));
    c.(agents := Some(section.(list := Some(list))))
  }

  datatype Provisioned = Created(config: Config, entry: Entry) | AlreadyExists(message: string)

  function AlreadyExistsMessage(id: string): string {
    "Agent \"" + id + "\" already exists"
  }

  /**
   * The configuration part of provisionAgent: an id already listed is
   * refused; otherwise the new entry is appended to the end of the list.
   */
  function ProvisionConfig(c: Config, openclawDir: string, id: string, name: Option<string>, model: Option<string>, skills: Option<seq<string>>): (r: Provisioned)
    ensures r.AlreadyExists? <==> HasAgent(AgentList(c), id)
    ensures r.AlreadyExists? ==> r.message == AlreadyExistsMessage(id)
    ensures r.Created? ==> r.entry == NewEntry(openclawDir, id, name, model, skills)
    ensures r.Created? ==> AgentList(r.config) == AgentList(c) + [r.entry]
    ensures r.Created? ==> r.config.others == c.others
  {
    var list := AgentList(c);
    if exists i :: 0 <= i < |list| && list[i].id == id then AlreadyExists(AlreadyExistsMessage(id))
    else
      var entry := NewEntry(openclawDir, id, name, model, skills);
      Created(WithList(c, list + [entry]), entry)
  }

  /** After provisioning, the new agent is listed exactly once. */
  lemma ProvisionListsOnce(c: Config, openclawDir: string, id: string, name: Option<string>, model: Option<string>, skills: Option<seq<string>>)
    requires ProvisionConfig(c, openclawDir, id, name, model, skills).Created?
    ensures var list := AgentList(ProvisionConfig(c, openclawDir, id, name, model, skills).config);
      list[|list| - 1].id == id && forall i :: 0 <= i < |list| - 1 ==> list[i].id != id
  {
  }

  // ---------------------------------------------------------------------------
  // Filesystem effects of provisionAgent

  datatype Effect = MakeDir(path: string) | WriteFile(path: string, content: string)

  function SoulPath(openclawDir: string, id: string): string {
    WorkspaceDir(openclawDir, id) + "/SOUL.md"
  }

  /** The directories and SOUL.md a successful provisioning creates, in order. */
  function SetupEffects(openclawDir: string, id: string, soulMd: Option<string>): (r: seq<Effect>)
    ensures MakeDir(WorkspaceDir(openclawDir, id)) in r && MakeDir(AgentDir(openclawDir, id)) in r
    ensures WriteFile(SoulPath(openclawDir, id), soulMd.GetOr("")) in r <==> Truthy(soulMd)
  {
    [MakeDir(WorkspaceDir(openclawDir, id))]
      + (if Truthy(soulMd) then [WriteFile(SoulPath(openclawDir, id), soulMd.value)] else [])
      + [MakeDir(AgentDir(openclawDir, id))]
  }

  /**
   * provisionAgent as written: the directories are created and SOUL.md is
   * written before the duplicate check, so the effects happen whatever the
   * check decides.
   */
  function ProvisionEffectsAsWritten(c: Config, openclawDir: string, id: string, soulMd: Option<string>): (r: seq<Effect>)
    ensures MakeDir(WorkspaceDir(openclawDir, id)) in r && MakeDir(AgentDir(openclawDir, id)) in r
    ensures Truthy(soulMd) ==> WriteFile(SoulPath(openclawDir, id), soulMd.value) in r
  {
    SetupEffects(openclawDir, id, soulMd)
  }

  /** provisionAgent with the duplicate check first: a refused id touches nothing. */
  function ProvisionEffects(c: Config, openclawDir: string, id: string, soulMd: Option<string>): (r: seq<Effect>)
    ensures HasAgent(AgentList(c), id) ==> r == []
    ensures !HasAgent(AgentList(c), id) ==> r == ProvisionEffectsAsWritten(c, openclawDir, id, soulMd)
  {
    if HasAgent(AgentList(c), id) then [] else SetupEffects(openclawDir, id, soulMd)
  }

  /**
   * Re-posting an existing id with a SOUL.md is refused, yet as written it
   * still overwrites the existing agent's SOUL.md; with the check first it
   * does not.
   */
  lemma DuplicateOverwritesSoul(c: Config, openclawDir: string, id: string, soul: string)
    requires HasAgent(AgentList(c), id) && soul != ""
    ensures ProvisionConfig(c, openclawDir, id, None, None, None).AlreadyExists?
    ensures WriteFile(SoulPath(openclawDir, id), soul) in ProvisionEffectsAsWritten(c, openclawDir, id, Some(soul))
    ensures ProvisionEffects(c, openclawDir, id, Some(soul)) == []
  {
  }

  // ---------------------------------------------------------------------------
  // Removing an agent

  /** The position `findIndex` returns: the first entry with the id. */
  function FindAgent(list: seq<Entry>, id: string): (r: Option<nat>)
    ensures r.None? <==> !HasAgent(list, id)
    ensures r.Some? ==> r.value < |list| && list[r.value].id == id
    ensures r.Some? ==> forall j :: 0 <= j < r.value ==> list[j].id != id
  {
    if list == [] then None
    else if list[0].id == id then Some(0)
    else match FindAgent(list[1..], id)
      case None => None
      case Some(i) => Some(i + 1)
  }

  function CountId(list: seq<Entry>, id: string): nat {
    if list == [] then 0 else (if list[0].id == id then 1 else 0) + CountId(list[1..], id)
  }

  lemma {:induction false} CountIdAppend(a: seq<Entry>, b: seq<Entry>, id: string)
    ensures CountId(a + b, id) == CountId(a, id) + CountId(b, id)
  {
    if a == [] {
      assert a + b == b;
    } else {
      assert (a + b)[0] == a[0];
      assert (a + b)[1..] == a[1..] + b;
      CountIdAppend(a[1..], b, id);
    }
  }

  /** `splice(idx, 1)` at the first match: exactly one entry with the id goes, the rest keep their order. */
  lemma RemoveFirstMatch(list: seq<Entry>, id: string, i: nat)
    requires FindAgent(list, id) == Some(i)
    ensures CountId(list[..i] + list[i + 1..], id) + 1 == CountId(list, id)
    ensures forall x: Entry :: x.id != id ==> (x in list[..i] + list[i + 1..] <==> x in list)
  {
    assert list == list[..i] + [list[i]] + list[i + 1..];
    CountIdAppend(list[..i] + [list[i]], list[i + 1..], id);
    CountIdAppend(list[..i], [list[i]], id);
    CountIdAppend(list[..i], list[i + 1..], id);
    assert [list[i]][1..] == [];
  }

  // ---------------------------------------------------------------------------
  // Responses

  datatype Payload =
    | ErrorJson(error: string)
    | AgentJson(agent: Entry)
    | OkJson
    | FileBytes(path: string)
    | NotFoundText
    | Empty

  datatype Response = Response(status: nat, contentType: Option<string>, payload: Payload)

  const JsonType: string := "application/json"

  function JsonResponse(status: nat, p: Payload): Response {
    Response(status, Some(JsonType), p)
  }

  /** What handling a request did: the response, the configuration written back if any, and directory/file effects. */
  datatype Outcome = Outcome(response: Response, written: Option<Config>, effects: seq<Effect>)

  function Reply(status: nat, p: Payload): Outcome {
    Outcome(JsonResponse(status, p), None, [])
  }

  const IdRequired: string := "id is required"
  const NoAgentsConfigured: string := "No agents configured"

  function NotFoundMessage(id: string): string {
    "Agent \"" + id + "\" not found"
  }

  /** POST /api/agents. */
  function HandlePost(body: Body, read: ConfigRead, openclawDir: string): (r: Outcome)
    ensures body.Malformed? ==> r == Reply(500, ErrorJson(body.message))
    ensures body.Json? && !Truthy(body.fields.id) ==> r == Reply(400, ErrorJson(IdRequired))
    ensures r.response.status == 400 <==> body.Json? && !Truthy(body.fields.id)
    ensures (body.Json? && Truthy(body.fields.id) && read.Unreadable?) ==>
      r.response == JsonResponse(500, ErrorJson(read.message))
      && r.effects == SetupEffects(openclawDir, body.fields.id.value, body.fields.soulMd)
    ensures (body.Json? && Truthy(body.fields.id) && read.Readable?
             && HasAgent(AgentList(read.config), body.fields.id.value)) ==>
      r.response == JsonResponse(500, ErrorJson(AlreadyExistsMessage(body.fields.id.value))) && r.effects == []
    ensures r.response.status == 200 <==>
      body.Json? && Truthy(body.fields.id) && read.Readable? && !HasAgent(AgentList(read.config), body.fields.id.value)
    ensures r.response.status == 200 ==>
      && r.written.Some? && r.response.payload.AgentJson?
      && AgentList(r.written.value) == AgentList(read.config) + [r.response.payload.agent]
      && r.response.payload.agent.id == body.fields.id.value
      && r.response.payload.agent
         == NewEntry(openclawDir, body.fields.id.value, body.fields.name, body.fields.model, body.fields.skills)
      && r.written.value.others == read.config.others
      && r.effects == SetupEffects(openclawDir, body.fields.id.value, body.fields.soulMd)
    ensures r.response.status != 200 ==> r.written.None?
    ensures r.response.status in {200, 400, 500}
  {
    match body
    case Malformed(msg) => Reply(500, ErrorJson(msg))
    case Json(req) =>
      if !Truthy(req.id) then Reply(400, ErrorJson(IdRequired))
      else
        var id := req.id.value;
        match read
        case Unreadable(msg) => Outcome(JsonResponse(500, ErrorJson(msg)), None, SetupEffects(openclawDir, id, req.soulMd))
        case Readable(c) =>
          var effects := ProvisionEffects(c, openclawDir, id, req.soulMd);
          match ProvisionConfig(c, openclawDir, id, req.name, req.model, req.skills)
          case AlreadyExists(msg) => Outcome(JsonResponse(500, ErrorJson(msg)), None, effects)
          case Created(c2, entry) => Outcome(JsonResponse(200, AgentJson(entry)), Some(c2), effects)
  }

  /** DELETE /api/agents. */
  function HandleDelete(body: Body, read: ConfigRead): (r: Outcome)
    ensures body.Malformed? ==> r == Reply(500, ErrorJson(body.message))
    ensures body.Json? && !Truthy(body.fields.id) ==> r == Reply(400, ErrorJson(IdRequired))
    ensures r.response.status == 200 <==>
      body.Json? && Truthy(body.fields.id) && read.Readable? && HasAgent(AgentList(read.config), body.fields.id.value)
    ensures r.response.status == 404 ==>
      && body.Json? && Truthy(body.fields.id) && read.Readable?
      && r.response.payload == ErrorJson(
           if read.config.agents.None? || read.config.agents.value.list.None? then NoAgentsConfigured
           else NotFoundMessage(body.fields.id.value))
    ensures body.Json? && Truthy(body.fields.id) && read.Unreadable? ==> r == Reply(500, ErrorJson(read.message))
    ensures (body.Json? && Truthy(body.fields.id) && read.Readable?
             && (read.config.agents.None? || read.config.agents.value.list.None?)) ==>
      r == Reply(404, ErrorJson(NoAgentsConfigured))
    ensures (body.Json? && Truthy(body.fields.id) && read.Readable?
             && read.config.agents.Some? && read.config.agents.value.list.Some?
             && !HasAgent(read.config.agents.value.list.value, body.fields.id.value)) ==>
      r == Reply(404, ErrorJson(NotFoundMessage(body.fields.id.value)))
    ensures r.response.status in {200, 400, 404, 500}
    ensures r.written.Some? <==> r.response.status == 200
    ensures r.response.status == 200 ==>
      var list := AgentList(read.config);
      var i := FindAgent(list, body.fields.id.value).value;
      AgentList(r.written.value) == list[..i] + list[i + 1..] && r.written.value.others == read.config.others
    ensures r.effects == []
  {
    match body
    case Malformed(msg) => Reply(500, ErrorJson(msg))
    case Json(req) =>
      if !Truthy(req.id) then Reply(400, ErrorJson(IdRequired))
      else
        var id := req.id.value;
        match read
        case Unreadable(msg) => Reply(500, ErrorJson(msg))
        case Readable(c) =>
          if c.agents.None? || c.agents.value.list.None? then Reply(404, ErrorJson(NoAgentsConfigured))
          else
            var list := c.agents.value.list.value;
            match FindAgent(list, id)
            case None => Reply(404, ErrorJson(NotFoundMessage(id)))
            case Some(i) =>
              Outcome(JsonResponse(200, OkJson), Some(WithList(c, list[..i] + list[i + 1..])), [])
  }

  /** An entry appended under a new id is found last, and splicing it out restores the list. */
  lemma AppendedFoundLast(list: seq<Entry>, e: Entry)
    requires !HasAgent(list, e.id)
    ensures FindAgent(list + [e], e.id) == Some(|list|)
    ensures (list + [e])[..|list|] + (list + [e])[|list| + 1..] == list
  {
    var after := list + [e];
    assert after[|list|] == e;
    assert HasAgent(after, e.id);
    var r := FindAgent(after, e.id);
    if r.value < |list| {
      assert false;
    }
    assert after[..|list|] == list;
    assert after[|list| + 1..] == [];
  }

  /** Deleting an agent just provisioned gives back the list as it was. */
  lemma PostThenDelete(c: Config, openclawDir: string, req: AgentRequest)
    requires Truthy(req.id)
    ensures var post := HandlePost(Json(req), Readable(c), openclawDir);
      post.response.status == 200 ==>
        var del := HandleDelete(Json(req), Readable(post.written.value));
        del.response.status == 200 && AgentList(del.written.value) == AgentList(c)
  {
    var post := HandlePost(Json(req), Readable(c), openclawDir);
    if post.response.status == 200 {
      var e := post.response.payload.agent;
      AppendedFoundLast(AgentList(c), e);
    }
  }

  /** A second POST of the same id is refused and writes nothing. */
  lemma PostTwiceRefused(c: Config, openclawDir: string, req: AgentRequest)
    requires Truthy(req.id)
    ensures var post := HandlePost(Json(req), Readable(c), openclawDir);
      post.response.status == 200 ==>
        var again := HandlePost(Json(req), Readable(post.written.value), openclawDir);
        again.response == JsonResponse(500, ErrorJson(AlreadyExistsMessage(req.id.value)))
          && again.written.None?
  {
    var post := HandlePost(Json(req), Readable(c), openclawDir);
    if post.response.status == 200 {
      var after := AgentList(post.written.value);
      assert after[|after| - 1].id == req.id.value;
    }
  }

  // ---------------------------------------------------------------------------
  // Static files

  const IndexFile: string := "/index.html"
  const DefaultType: string := "application/octet-stream"

  /** The content-type table; other extensions, including other letter cases, have no entry. */
  function MimeType(ext: string): (r: Option<string>)
    ensures r.Some? <==> ext in {".html", ".js", ".css", ".json", ".png", ".svg", ".ico", ".woff2", ".woff", ".ttf"}
  {
    if ext == ".html" then Some("text/html")
    else if ext == ".js" then Some("application/javascript")
    else if ext == ".css" then Some("text/css")
    else if ext == ".json" then Some("application/json")
    else if ext == ".png" then Some("image/png")
    else if ext == ".svg" then Some("image/svg+xml")
    else if ext == ".ico" then Some("image/x-icon")
    else if ext == ".woff2" then Some("font/woff2")
    else if ext == ".woff" then Some("font/woff")
    else if ext == ".ttf" then Some("font/ttf")
    else None
  }

  /** The last position of `c` in `s`. */
  function LastIndexOf(s: string, c: char): (r: Option<nat>)
    ensures r.None? <==> c !in s
    ensures r.Some? ==> r.value < |s| && s[r.value] == c && c !in s[r.value + 1..]
  {
    if s == [] then None
    else if s[|s| - 1] == c then Some(|s| - 1)
    else
      var r := LastIndexOf(s[..|s| - 1], c);
      assert r.Some? ==> s[r.value + 1..] == s[..|s| - 1][r.value + 1..] + [s[|s| - 1]];
      r
  }

  /** The last path component. */
  function BaseName(path: string): (b: string)
    ensures '/' !in b
    ensures SuffixOf(b, path)
  {
    match LastIndexOf(path, '/')
    case None => path
    case Some(i) => path[i + 1..]
  }

  /** `x` is the end of `path`. */
  predicate SuffixOf(x: string, path: string) {
    |x| <= |path| && x == path[|path| - |x|..]
  }

  /** An extension: empty, or a '.' followed by neither '.' nor '/'. */
  predicate ExtensionShaped(ext: string) {
    ext == "" || (ext[0] == '.' && '/' !in ext && '.' !in ext[1..])
  }

  /** A suffix of a suffix is a suffix. */
  lemma SuffixOfSuffix(s: string, t: string, d: nat)
    requires SuffixOf(t, s) && d <= |t|
    ensures SuffixOf(t[d..], s)
  {
  }

  /** From the last '.' of a component with no '/' to its end: a dot, then neither '.' nor '/'. */
  lemma ExtShape(b: string, d: nat)
    requires d < |b| && b[d] == '.' && '.' !in b[d + 1..] && '/' !in b
    ensures ExtensionShaped(b[d..])
  {
    assert b[d..][1..] == b[d + 1..];
    assert forall k :: 0 <= k < |b[d..]| ==> b[d..][k] == b[d + k];
  }

  /**
   * `path.extname`: from the last '.' of the last component to its end; empty
   * when the component has no '.', starts with its only leading '.', or is "..".
   */
  function ExtName(path: string): (ext: string)
    ensures ExtensionShaped(ext)
    ensures SuffixOf(ext, path)
  {
    var b := BaseName(path);
    match LastIndexOf(b, '.')
    case None => assert path[|path|..] == ""; ""
    case Some(d) =>
      if d == 0 || b == ".." then assert path[|path|..] == ""; ""
      else
        ExtShape(b, d);
        SuffixOfSuffix(path, b, d);
        b[d..]
  }

  /** The dist-relative file a GET resolves to: "/" is the index page, and anything missing falls back to it. */
  function StaticTarget(url: string, present: set<string>): (p: string)
    ensures url != "/" && url in present ==> p == url
    ensures url == "/" || url !in present ==> p == IndexFile
  {
    var requested := if url == "/" then IndexFile else url;
    if requested in present then requested else IndexFile
  }

  /** Serving a built file: its bytes with the table's type or the generic one, 404 when it cannot be read. */
  function ServeStatic(url: string, present: set<string>, readable: set<string>): (r: Response)
    ensures url != "/" && url in present && url in readable ==>
      r == Response(200, Some(MimeType(ExtName(url)).GetOr(DefaultType)), FileBytes(url))
    ensures url != "/" && url in present && url !in readable ==> r == Response(404, None, NotFoundText)
    ensures url == "/" || url !in present ==>
      && (IndexFile in readable ==> r.status == 200 && r.payload == FileBytes(IndexFile))
      && (IndexFile !in readable ==> r == Response(404, None, NotFoundText))
    ensures r.status == 200 <==> r.payload.FileBytes?
    ensures r.status in {200, 404}
  {
    var p := StaticTarget(url, present);
    if p in readable then Response(200, Some(MimeType(ExtName(p)).GetOr(DefaultType)), FileBytes(p))
    else Response(404, None, NotFoundText)
  }

  /** The last occurrence is where `LastIndexOf` finds it. */
  lemma LastIndexOfAt(s: string, c: char, i: nat)
    requires i < |s| && s[i] == c && c !in s[i + 1..]
    ensures LastIndexOf(s, c) == Some(i)
  {
    assert s[i] in s;
    assert forall k :: i < k < |s| ==> s[k] == s[i + 1..][k - i - 1];
    var r := LastIndexOf(s, c);
    assert forall k :: r.value < k < |s| ==> s[k] == s[r.value + 1..][k - r.value - 1];
  }

  /** The last component of "<dir>/<name>" is `name` when it has no '/'. */
  lemma BaseNameUnder(dir: string, name: string)
    requires '/' !in name
    ensures BaseName(dir + "/" + name) == name
  {
    var path := dir + "/" + name;
    assert path[|dir|] == '/' && path[|dir| + 1..] == name;
    LastIndexOfAt(path, '/', |dir|);
  }

  /** The last dot of "<stem><ext>" starts `ext` when `ext` has no dot after its first. */
  lemma LastDotStartsExt(stem: string, ext: string)
    requires |ext| >= 1 && ext[0] == '.' && '.' !in ext[1..]
    ensures LastIndexOf(stem + ext, '.') == Some(|stem|)
    ensures (stem + ext)[|stem|..] == ext
  {
    var b := stem + ext;
    assert b[|stem|..] == ext && b[|stem| + 1..] == ext[1..];
    LastIndexOfAt(b, '.', |stem|);
  }

  /**
   * A file "<dir>/<stem><ext>" in any directory has extension `ext`, whatever
   * dots the stem holds, as long as the stem is not empty.
   */
  lemma ExtNameUnder(dir: string, stem: string, ext: string)
    requires stem != "" && '/' !in stem
    requires |ext| >= 2 && ext[0] == '.' && '/' !in ext && '.' !in ext[1..]
    ensures ExtName(dir + "/" + stem + ext) == ext
  {
    var b := stem + ext;
    assert dir + "/" + stem + ext == dir + "/" + b;
    assert '/' !in b by {
      forall k | 0 <= k < |b| ensures b[k] != '/' {
        if k < |stem| { assert b[k] == stem[k]; } else { assert b[k] == ext[k - |stem|]; }
      }
    }
    BaseNameUnder(dir, b);
    LastDotStartsExt(stem, ext);
    assert b != ".." by { assert |b| >= 3; }
  }

  /** A built script such as "/assets/index-<hash>.js" is served as JavaScript. */
  lemma ScriptServedAsJavaScript(dir: string, stem: string)
    requires stem != "" && '/' !in stem
    ensures MimeType(ExtName(dir + "/" + stem + ".js")) == Some("application/javascript")
  {
    assert ".js"[1..] == "js";
    ExtNameUnder(dir, stem, ".js");
  }

  lemma IndexStemPlain()
    ensures "index" != "" && '/' !in "index" && '.' !in "index"
  {
  }

  lemma HtmlExtShape()
    ensures |".html"| >= 2 && ".html"[0] == '.' && '/' !in ".html" && '.' !in ".html"[1..]
  {
    assert ".html"[1..] == "html";
  }

  lemma IndexPath(p: string)
    requires p == IndexFile
    ensures p == "" + "/" + "index" + ".html"
  {
  }

  lemma IndexExt(p: string)
    requires p == "" + "/" + "index" + ".html"
    ensures ExtName(p) == ".html"
  {
    IndexStemPlain();
    HtmlExtShape();
    ExtNameUnder("", "index", ".html");
  }

  /** The index page is served as HTML. */
  lemma IndexIsHtml(p: string)
    requires p == IndexFile
    ensures MimeType(ExtName(p)) == Some("text/html")
  {
    IndexPath(p);
    IndexExt(p);
  }

  /** The root and every unknown route of the single-page app are answered with the index page as HTML. */
  lemma SpaFallback(url: string, present: set<string>, readable: set<string>)
    requires (url == "/" || url !in present) && IndexFile in readable
    ensures ServeStatic(url, present, readable) == Response(200, Some("text/html"), FileBytes(IndexFile))
  {
    IndexIsHtml(StaticTarget(url, present));
  }

  // ---------------------------------------------------------------------------
  // Routing

  datatype Request = Request(verb: string, url: string, body: Body)

  const ApiAgents: string := "/api/agents"

  /**
   * The request handler: a preflight gets 204 on any path, the two agent
   * routes go to their handlers, and everything else is a static file.
   */
  function Handle(req: Request, read: ConfigRead, openclawDir: string, present: set<string>, readable: set<string>): (r: Outcome)
    ensures req.verb == "OPTIONS" ==> r == Outcome(Response(204, None, Empty), None, [])
    ensures req.verb == "POST" && req.url == ApiAgents ==> r == HandlePost(req.body, read, openclawDir)
    ensures req.verb == "DELETE" && req.url == ApiAgents ==> r == HandleDelete(req.body, read)
    ensures r.written.Some? ==> req.url == ApiAgents && req.verb in {"POST", "DELETE"}
    ensures req.url != ApiAgents && req.verb != "OPTIONS" ==>
      r == Outcome(ServeStatic(req.url, present, readable), None, [])
  {
    if req.verb == "OPTIONS" then Outcome(Response(204, None, Empty), None, [])
    else if req.url == ApiAgents && req.verb == "POST" then HandlePost(req.body, read, openclawDir)
    else if req.url == ApiAgents && req.verb == "DELETE" then HandleDelete(req.body, read)
    else Outcome(ServeStatic(req.url, present, readable), None, [])
  }
}

=== FILE: sidebar.dfy ===
/**
 * The pure logic of the agent sidebar: its persisted and dragged width, the
 * short model label, the active agent derived from the session key, the id
 * typed into the "new agent" form, the one-entry-per-agent list with its
 * ordering and name filter, and keyboard navigation of that list.
 */
module Sidebar {
  import opened Wrappers
  import opened Text
  import opened ChatTypes
  import opened FocusRing

  // ---------------------------------------------------------------------------
  // Width

  const MinWidth: real := 220.0
  const MaxWidth: real := 480.0
  const DefaultWidth: real := 288.0

  /**
   * The initial width. `stored` is the number read from storage; it is None
   * when nothing is stored, the stored text is empty or not a number, or
   * storage is unavailable.
   */
  function SavedWidth(stored: Option<real>): (w: real)
    ensures MinWidth <= w <= MaxWidth
    ensures stored.Some? && MinWidth <= stored.value <= MaxWidth ==> w == stored.value
    ensures !(stored.Some? && MinWidth <= stored.value <= MaxWidth) ==> w == DefaultWidth
  {
    if stored.Some? && stored.value >= MinWidth && stored.value <= MaxWidth then stored.value
    else DefaultWidth
  }

  /** The width while dragging: the start width moved by the mouse, clamped to the bounds. */
  function DragWidth(startW: real, startX: real, clientX: real): (w: real)
    ensures MinWidth <= w <= MaxWidth
    ensures MinWidth <= startW + (clientX - startX) <= MaxWidth ==> w == startW + (clientX - startX)
    ensures startW + (clientX - startX) < MinWidth ==> w == MinWidth
    ensures startW + (clientX - startX) > MaxWidth ==> w == MaxWidth
  {
    var raw := startW + (clientX - startX);
    var atLeastMin := if MinWidth > raw then MinWidth else raw;
    if MaxWidth < atLeastMin then MaxWidth else atLeastMin
  }

  /** Dragging further right never makes the sidebar narrower. */
  lemma DragMonotone(startW: real, startX: real, x1: real, x2: real)
    requires x1 <= x2
    ensures DragWidth(startW, startX, x1) <= DragWidth(startW, startX, x2)
  {
  }

  // ---------------------------------------------------------------------------
  // Model label

  const KnownModelNames: seq<string> := ["opus", "sonnet", "haiku", "flash", "pro", "nano"]
  const FallbackLength: nat := 16
  const FallbackKeep: nat := 14

  /** The position of the first part whose lower-cased form is a known model name. */
  function FirstKnown(parts: seq<string>): (r: Option<nat>)
    ensures r.None? <==> forall i :: 0 <= i < |parts| ==> Lower(parts[i]) !in KnownModelNames
    ensures r.Some? ==> r.value < |parts| && Lower(parts[r.value]) in KnownModelNames
    ensures r.Some? ==> forall j :: 0 <= j < r.value ==> Lower(parts[j]) !in KnownModelNames
  {
    if parts == [] then None
    else if Lower(parts[0]) in KnownModelNames then Some(0)
    else
      match FirstKnown(parts[1..])
      case None => None
      case Some(i) => Some(i + 1)
  }

  /**
   * shortModel: a readable label for a model id — the first '-'-separated
   * part naming a known model family, else the id itself, cut to 14
   * characters and an ellipsis when longer than 16.
   */
  function ShortModel(model: Option<string>): (r: Option<string>)
    ensures r.None? <==> !Truthy(model)
    ensures r.Some? ==> |r.value| <= FallbackLength
    ensures r.Some? && FirstKnown(Split(model.value, '-')).Some? ==>
      r.value == Lower(Split(model.value, '-')[FirstKnown(Split(model.value, '-')).value])
    ensures r.Some? && FirstKnown(Split(model.value, '-')).None? ==>
      (|model.value| <= FallbackLength ==> r.value == model.value)
      && (|model.value| > FallbackLength ==> r.value == model.value[..FallbackKeep] + "…")
  {
    if !Truthy(model) then None
    else
      var parts := Split(model.value, '-');
      match FirstKnown(parts)
      case Some(i) => Some(Lower(parts[i]))
      case None =>
        Some(if |model.value| > FallbackLength then model.value[..FallbackKeep] + "…" else model.value)
  }

  /**
   * When some part names a known family, the label is the first such part in
   * lower case: no part before it names a family.
   */
  lemma ShortModelKnown(model: string, i: nat)
    requires i < |Split(model, '-')| && Lower(Split(model, '-')[i]) in KnownModelNames
    ensures exists j :: (0 <= j <= i && ShortModel(Some(model)) == Some(Lower(Split(model, '-')[j]))
                         && forall k :: 0 <= k < j ==> Lower(Split(model, '-')[k]) !in KnownModelNames)
    ensures ShortModel(Some(model)).value in KnownModelNames
  {
    var parts := Split(model, '-');
    var j := FirstKnown(parts).value;
    assert j <= i;
    assert ShortModel(Some(model)) == Some(Lower(parts[j]));
  }

  /**
   * An id such as "claude-3-opus" shortens to its family: the parts before the
   * family name are skipped.
   */
  lemma ShortModelFamily(vendor: string, version: string, family: string)
    requires '-' !in vendor && '-' !in version && '-' !in family
    requires Lower(vendor) !in KnownModelNames && Lower(version) !in KnownModelNames
    requires Lower(family) in KnownModelNames
    ensures ShortModel(Some(vendor + "-" + version + "-" + family)) == Some(Lower(family))
  {
    var parts := Split(vendor + "-" + version + "-" + family, '-');
    assert vendor + "-" + version + "-" + family == vendor + ['-'] + version + ['-'] + family;
    SplitThree(vendor, version, family, '-');
    assert FirstKnown(parts[2..]) == Some(0);
    assert parts[1..][1..] == parts[2..];
  }

  // ---------------------------------------------------------------------------
  // Session keys

  const AgentPrefix: string := "agent:"

  /** The session key of an agent's main conversation. */
  function CanonicalKey(agentId: string): string {
    AgentPrefix + agentId + ":main"
  }

  /** The agent id in a session key `agent:<id>:…` (the regex `^agent:([^:]+):`). */
  function ActiveAgentId(sessionKey: string): (r: Option<string>)
    ensures r.Some? ==> r.value != "" && ':' !in r.value
  {
    if !StartsWith(sessionKey, AgentPrefix) then None
    else
      var rest := sessionKey[|AgentPrefix|..];
      match IndexOf(rest, ':')
      case None => None
      case Some(i) => if i == 0 then None else Some(rest[..i])
  }

  /** The key names agent `id` exactly when it reads `agent:<id>:` followed by anything. */
  lemma ActiveAgentIdIff(sessionKey: string, id: string)
    ensures ActiveAgentId(sessionKey) == Some(id) <==>
      id != "" && ':' !in id && StartsWith(sessionKey, AgentPrefix + id + ":")
  {
    StartsWithConcat(sessionKey, AgentPrefix + id, ":");
    StartsWithConcat(sessionKey, AgentPrefix, id);
    if StartsWith(sessionKey, AgentPrefix) {
      var rest := sessionKey[|AgentPrefix|..];
      if |id| <= |rest| {
        assert rest[|id|..] == sessionKey[|AgentPrefix + id|..];
      }
      if id != "" && ':' !in id && StartsWith(sessionKey, AgentPrefix + id + ":") {
        assert rest[..|id|] == id && rest[|id|] == ':';
        IndexOfAt(rest, ':', |id|);
      }
      if ActiveAgentId(sessionKey) == Some(id) {
        assert rest[..|id|] == id;
        assert rest[|id|..][..1] == [':'];
      }
    }
  }

  /** Reading the agent back out of its canonical key gives the agent. */
  lemma CanonicalKeyRoundTrip(id: string)
    requires id != "" && ':' !in id
    ensures ActiveAgentId(CanonicalKey(id)) == Some(id)
  {
    var key := CanonicalKey(id);
    assert key == (AgentPrefix + id + ":") + "main";
    ActiveAgentIdIff(key, id);
  }

  // ---------------------------------------------------------------------------
  // New agent form

  predicate IsIdChar(c: char) {
    'a' <= c <= 'z' || '0' <= c <= '9' || c == '_' || c == '-'
  }

  function SanitizeChar(c: char): char {
    if IsIdChar(c) then c else '-'
  }

  /** The id typed into the form: trimmed, lower-cased, every other character replaced by '-'. */
  function SanitizeAgentId(raw: string): (id: string)
    ensures |id| == |Trim(raw)|
    ensures forall k :: 0 <= k < |id| ==> IsIdChar(id[k])
    ensures forall k :: 0 <= k < |id| && IsIdChar(LowerChar(Trim(raw)[k])) ==> id[k] == LowerChar(Trim(raw)[k])
    ensures forall k :: 0 <= k < |id| && !IsIdChar(LowerChar(Trim(raw)[k])) ==> id[k] == '-'
  {
    var t := Trim(raw);
    seq(|t|, k requires 0 <= k < |t| => SanitizeChar(LowerChar(t[k])))
  }

  /** Id characters are neither white space nor upper case. */
  lemma IdCharPlain(c: char)
    requires IsIdChar(c)
    ensures !IsWhitespace(c) && LowerChar(c) == c
  {
  }

  /** A sanitized id is already clean: sanitizing it again changes nothing. */
  lemma SanitizeIdempotent(raw: string)
    ensures SanitizeAgentId(SanitizeAgentId(raw)) == SanitizeAgentId(raw)
  {
    var id := SanitizeAgentId(raw);
    forall k | 0 <= k < |id|
      ensures !IsWhitespace(id[k]) && LowerChar(id[k]) == id[k]
    {
      IdCharPlain(id[k]);
    }
    TrimPlain(id);
    var again := SanitizeAgentId(id);
    assert |again| == |id|;
    forall k | 0 <= k < |id|
      ensures again[k] == id[k]
    {
      assert again[k] == SanitizeChar(LowerChar(id[k]));
    }
  }

  datatype CreateAgentOptions = CreateAgentOptions(id: string, name: Option<string>, emoji: Option<string>)

  /** Trimmed text, or nothing when it trims to empty (`s.trim() || undefined`). */
  function TrimmedOrNone(s: string): (r: Option<string>)
    ensures r.Some? ==> r.value == Trim(s) && r.value != ""
    ensures r.None? ==> Trim(s) == ""
  {
    if Trim(s) == "" then None else Some(Trim(s))
  }

  /**
   * handleCreateAgent: the options passed to the create callback, or nothing
   * when the sanitized id is empty or no callback is wired.
   */
  function CreateAgentRequest(rawId: string, rawName: string, rawEmoji: string, canCreate: bool): (r: Option<CreateAgentOptions>)
    ensures r.Some? <==> canCreate && !(forall k :: 0 <= k < |rawId| ==> IsWhitespace(rawId[k]))
    ensures r.Some? ==> r.value.id == SanitizeAgentId(rawId) && r.value.id != ""
    ensures r.Some? ==> r.value.name == TrimmedOrNone(rawName) && r.value.emoji == TrimmedOrNone(rawEmoji)
  {
    TrimEmptyIff(rawId);
    var id := SanitizeAgentId(rawId);
    if id == "" || !canCreate then None
    else Some(CreateAgentOptions(id, TrimmedOrNone(rawName), TrimmedOrNone(rawEmoji)))
  }

  // ---------------------------------------------------------------------------
  // Agent list

  datatype AgentChat = AgentChat(agent: Agent, session: Option<Session>, key: string)

  /** `updatedAt || 0`. */
  function UpdatedAt(s: Session): int {
    s.updatedAt.GetOr(0)
  }

  /** The sessions grouped under an agent: those carrying its (non-empty) agent id, in order. */
  function SessionsOf(agentId: string, sessions: seq<Session>): (r: seq<Session>)
    ensures forall s :: s in r <==> s in sessions && Truthy(s.agentId) && s.agentId.value == agentId
  {
    if sessions == [] then []
    else
      var rest := SessionsOf(agentId, sessions[1..]);
      var s := sessions[0];
      if Truthy(s.agentId) && s.agentId.value == agentId then [s] + rest else rest
  }

  /** Grouping keeps the sessions' order: it distributes over concatenation. */
  lemma {:induction false} SessionsOfAppend(agentId: string, a: seq<Session>, b: seq<Session>)
    ensures SessionsOf(agentId, a + b) == SessionsOf(agentId, a) + SessionsOf(agentId, b)
    decreases |a|
  {
    if a == [] {
      assert a + b == b;
    } else {
      var ab := a + b;
      assert ab[0] == a[0] && ab[1..] == a[1..] + b;
      SessionsOfAppend(agentId, a[1..], b);
    }
  }

  /** The first session with the given key. */
  function FindByKey(ss: seq<Session>, key: string): (r: Option<Session>)
    ensures r.None? <==> forall s :: s in ss ==> s.key != key
    ensures r.Some? ==> r.value in ss && r.value.key == key
    ensures r.Some? ==> exists i :: 0 <= i < |ss| && ss[i] == r.value && forall j :: 0 <= j < i ==> ss[j].key != key
  {
    if ss == [] then None
    else if ss[0].key == key then Some(ss[0])
    else
      var r := FindByKey(ss[1..], key);
      assert r.Some? ==> exists i :: 0 <= i < |ss| && ss[i] == r.value && forall j :: 0 <= j < i ==> ss[j].key != key by {
        if r.Some? {
          var i :| 0 <= i < |ss[1..]| && ss[1..][i] == r.value && forall j :: 0 <= j < i ==> ss[1..][j].key != key;
          assert ss[i + 1] == r.value && forall j :: 0 <= j < i + 1 ==> ss[j].key != key;
        }
      }
      r
  }

  /**
   * The first of the most recently updated sessions — the head of a stable
   * sort by `updatedAt` descending.
   */
  function MostRecent(ss: seq<Session>): (r: Option<nat>)
    ensures r.None? <==> ss == []
    ensures r.Some? ==> r.value < |ss|
    ensures r.Some? ==> forall k :: 0 <= k < |ss| ==> UpdatedAt(ss[k]) <= UpdatedAt(ss[r.value])
    ensures r.Some? ==> forall j :: 0 <= j < r.value ==> UpdatedAt(ss[j]) < UpdatedAt(ss[r.value])
  {
    if ss == [] then None
    else
      match MostRecent(ss[1..])
      case None => Some(0)
      case Some(t) => if UpdatedAt(ss[t + 1]) > UpdatedAt(ss[0]) then Some(t + 1) else Some(0)
  }

  /** The session shown for an agent: its canonical-key session, else its most recent one. */
  function BestSession(agent: Agent, sessions: seq<Session>): (r: Option<Session>)
    ensures r.Some? ==> r.value in sessions && r.value.agentId == Some(agent.id)
    ensures r.None? <==> SessionsOf(agent.id, sessions) == []
  {
    var own := SessionsOf(agent.id, sessions);
    match FindByKey(own, CanonicalKey(agent.id))
    case Some(s) => Some(s)
    case None =>
      match MostRecent(own)
      case None => None
      case Some(i) => Some(own[i])
  }

  /**
   * The chosen session belongs to the agent; it is the canonical one when the
   * agent has it, and otherwise no session of the agent is more recent.
   */
  lemma BestSessionSpec(agent: Agent, sessions: seq<Session>)
    ensures var best := BestSession(agent, sessions);
      && (best.Some? ==> best.value in sessions && best.value.agentId == Some(agent.id))
      && (best.None? <==> forall s :: s in sessions ==> !(Truthy(s.agentId) && s.agentId.value == agent.id))
      && ((exists s :: s in SessionsOf(agent.id, sessions) && s.key == CanonicalKey(agent.id)) ==>
            best.Some? && best.value.key == CanonicalKey(agent.id))
      && ((forall s :: s in SessionsOf(agent.id, sessions) ==> s.key != CanonicalKey(agent.id)) && best.Some? ==>
            forall s :: s in SessionsOf(agent.id, sessions) ==> UpdatedAt(s) <= UpdatedAt(best.value))
  {
    var own := SessionsOf(agent.id, sessions);
    if own != [] { assert own[0] in own; }
  }

  function EntryFor(agent: Agent, sessions: seq<Session>): AgentChat {
    AgentChat(agent, BestSession(agent, sessions), CanonicalKey(agent.id))
  }

  /** The time an entry sorts by: its session's `updatedAt`, 0 without a session. */
  function EntryTime(e: AgentChat): int {
    match e.session
    case None => 0
    case Some(s) => UpdatedAt(s)
  }

  /** The comparator says `a` sorts strictly before `b`: more recent, or as recent with a smaller id. */
  predicate SortsBefore(a: AgentChat, b: AgentChat) {
    EntryTime(a) > EntryTime(b) || (EntryTime(a) == EntryTime(b) && LexLess(a.agent.id, b.agent.id))
  }

  predicate Sorted(s: seq<AgentChat>) {
    forall i :: 0 <= i < |s| - 1 ==> !SortsBefore(s[i + 1], s[i])
  }

  lemma SortsBeforeAsymmetric(a: AgentChat, b: AgentChat)
    requires SortsBefore(a, b)
    ensures !SortsBefore(b, a)
  {
    if EntryTime(a) == EntryTime(b) { LexLessAsymmetric(a.agent.id, b.agent.id); }
  }

  /** Stable insertion: `x` goes before the first element that does not sort strictly before it. */
  function Insert(x: AgentChat, s: seq<AgentChat>): (r: seq<AgentChat>)
    requires Sorted(s)
    ensures Sorted(r)
    ensures multiset(r) == multiset(s) + multiset{x}
    ensures |r| == |s| + 1
    ensures r[0] == x || (s != [] && r[0] == s[0])
  {
    if s == [] || !SortsBefore(s[0], x) then [x] + s
    else
      var rest := Insert(x, s[1..]);
      SortsBeforeAsymmetric(s[0], x);
      assert s == [s[0]] + s[1..];
      [s[0]] + rest
  }

  /** The stable sort `Array.prototype.sort` performs with the list's comparator. */
  function SortChats(s: seq<AgentChat>): (r: seq<AgentChat>)
    ensures Sorted(r)
    ensures multiset(r) == multiset(s)
    ensures |r| == |s|
  {
    if s == [] then []
    else
      assert s == [s[0]] + s[1..];
      Insert(s[0], SortChats(s[1..]))
  }

  function Entries(agents: seq<Agent>, sessions: seq<Session>): (r: seq<AgentChat>)
    ensures |r| == |agents|
    ensures forall i :: 0 <= i < |agents| ==> r[i] == EntryFor(agents[i], sessions)
  {
    seq(|agents|, i requires 0 <= i < |agents| => EntryFor(agents[i], sessions))
  }

  /** agentChats: one entry per agent, ordered most recent first, ties by agent id. */
  function AgentChats(agents: seq<Agent>, sessions: seq<Session>): (r: seq<AgentChat>)
    ensures |r| == |agents| && Sorted(r)
    ensures multiset(r) == multiset(Entries(agents, sessions))
  {
    SortChats(Entries(agents, sessions))
  }

  /** Adjacent order extends to the whole list: later entries are never more recent. */
  lemma {:induction false} SortedTimes(s: seq<AgentChat>, i: nat, j: nat)
    requires Sorted(s) && i <= j < |s|
    ensures EntryTime(s[j]) <= EntryTime(s[i])
    decreases j - i
  {
    if i < j {
      SortedTimes(s, i + 1, j);
      assert !SortsBefore(s[i + 1], s[i]);
    }
  }

  /** Among entries equally recent, agent ids never decrease along the list. */
  lemma {:induction false} SortedTies(s: seq<AgentChat>, i: nat, j: nat)
    requires Sorted(s) && i <= j < |s| && EntryTime(s[i]) == EntryTime(s[j])
    ensures s[i].agent.id == s[j].agent.id || LexLess(s[i].agent.id, s[j].agent.id)
    decreases j - i
  {
    if i < j {
      SortedTimes(s, i + 1, j);
      SortedTimes(s, i, i + 1);
      SortedTies(s, i + 1, j);
      assert !SortsBefore(s[i + 1], s[i]);
      var a, b, c := s[i].agent.id, s[i + 1].agent.id, s[j].agent.id;
      if a != b {
        LexLessTotal(a, b);
        if b != c { LexLessTransitive(a, b, c); }
      }
    }
  }

  /**
   * The list holds exactly one entry per agent (as a permutation of the agent
   * entries), keyed by the agent's canonical session key and carrying its best
   * session, ordered by recency then id.
   */
  lemma AgentChatsSpec(agents: seq<Agent>, sessions: seq<Session>)
    ensures var r := AgentChats(agents, sessions);
      && |r| == |agents|
      && multiset(r) == multiset(Entries(agents, sessions))
      && (forall e :: e in r ==> e.key == CanonicalKey(e.agent.id) && e.session == BestSession(e.agent, sessions))
      && (forall a :: a in agents ==> EntryFor(a, sessions) in r)
      && (forall i, j :: 0 <= i <= j < |r| ==> EntryTime(r[j]) <= EntryTime(r[i]))
      && (forall i, j :: 0 <= i <= j < |r| && EntryTime(r[i]) == EntryTime(r[j]) ==>
            r[i].agent.id == r[j].agent.id || LexLess(r[i].agent.id, r[j].agent.id))
  {
    var r := AgentChats(agents, sessions);
    var es := Entries(agents, sessions);
    forall e | e in r
      ensures e.key == CanonicalKey(e.agent.id) && e.session == BestSession(e.agent, sessions)
    {
      assert e in multiset(es);
    }
    forall a | a in agents
      ensures EntryFor(a, sessions) in r
    {
      var i :| 0 <= i < |agents| && agents[i] == a;
      assert es[i] in multiset(r);
    }
    forall i, j | 0 <= i <= j < |r|
      ensures EntryTime(r[j]) <= EntryTime(r[i])
    {
      SortedTimes(r, i, j);
    }
    forall i, j | 0 <= i <= j < |r| && EntryTime(r[i]) == EntryTime(r[j])
      ensures r[i].agent.id == r[j].agent.id || LexLess(r[i].agent.id, r[j].agent.id)
    {
      SortedTies(r, i, j);
    }
  }

  // ---------------------------------------------------------------------------
  // Name filter

  predicate MatchesQuery(e: AgentChat, query: string) {
    Contains(Lower(DisplayName(e.agent)), query)
  }

  /** The entries whose lower-cased display name contains `query`, in order. */
  function KeepMatching(chats: seq<AgentChat>, query: string): (r: seq<AgentChat>)
    ensures |r| <= |chats|
    ensures forall e :: e in r <==> e in chats && MatchesQuery(e, query)
  {
    if chats == [] then []
    else
      var rest := KeepMatching(chats[1..], query);
      if MatchesQuery(chats[0], query) then [chats[0]] + rest else rest
  }

  /** The filter keeps order: it distributes over concatenation. */
  lemma {:induction false} KeepMatchingAppend(a: seq<AgentChat>, b: seq<AgentChat>, query: string)
    ensures KeepMatching(a + b, query) == KeepMatching(a, query) + KeepMatching(b, query)
  {
    if a == [] {
      assert a + b == b;
    } else {
      assert (a + b)[0] == a[0];
      assert (a + b)[1..] == a[1..] + b;
      KeepMatchingAppend(a[1..], b, query);
    }
  }

  /**
   * filtered: a blank filter keeps the whole list; otherwise the entries whose
   * lower-cased display name contains the lower-cased filter (untrimmed).
   */
  function FilterChats(chats: seq<AgentChat>, filter: string): (r: seq<AgentChat>)
    ensures Trim(filter) == "" ==> r == chats
    ensures Trim(filter) != "" ==> forall e :: e in r <==> e in chats && MatchesQuery(e, Lower(filter))
  {
    if Trim(filter) == "" then chats else KeepMatching(chats, Lower(filter))
  }

  // ---------------------------------------------------------------------------
  // Keyboard navigation

  /** What a key press in the list does: the new focus index, a session to switch to, whether to close. */
  datatype ListKeyOutcome = ListKeyOutcome(focus: int, switchTo: Option<string>, close: bool)

  function ListKeyDown(focusIdx: int, filtered: seq<AgentChat>, key: string): (r: ListKeyOutcome)
    ensures |filtered| == 0 ==> r == ListKeyOutcome(focusIdx, None, false)
    ensures |filtered| > 0 && key == "ArrowDown" ==>
      r.focus == NextIndex(focusIdx, |filtered|) && r.switchTo.None? && !r.close
    ensures |filtered| > 0 && key == "ArrowUp" ==>
      r.focus == PrevIndex(focusIdx, |filtered|) && r.switchTo.None? && !r.close
    ensures r.switchTo.Some? <==> |filtered| > 0 && key == "Enter" && 0 <= focusIdx < |filtered|
    ensures r.switchTo.Some? ==> r.switchTo.value == filtered[focusIdx].key && r.close
    ensures key != "ArrowDown" && key != "ArrowUp" ==> r.focus == focusIdx
    ensures |filtered| > 0 && key == "Escape" ==> r.close && r.switchTo.None?
    ensures r.close ==> key == "Escape" || r.switchTo.Some?
  {
    var len := |filtered|;
    if len == 0 then ListKeyOutcome(focusIdx, None, false)
    else if key == "ArrowDown" then ListKeyOutcome(NextIndex(focusIdx, len), None, false)
    else if key == "ArrowUp" then ListKeyOutcome(PrevIndex(focusIdx, len), None, false)
    else if key == "Enter" && focusIdx >= 0 && focusIdx < len then
      ListKeyOutcome(focusIdx, Some(filtered[focusIdx].key), true)
    else if key == "Escape" then ListKeyOutcome(focusIdx, None, true)
    else ListKeyOutcome(focusIdx, None, false)
  }

  /**
   * Arrow keys keep focus inside the list: from "nothing focused" or any
   * index in range, ArrowDown and ArrowUp land on an entry.
   */
  lemma ArrowsStayInRange(focusIdx: int, filtered: seq<AgentChat>, key: string)
    requires 0 < |filtered| && -1 <= focusIdx < |filtered|
    requires key == "ArrowDown" || key == "ArrowUp"
    ensures 0 <= ListKeyDown(focusIdx, filtered, key).focus < |filtered|
  {
  }

  /** ArrowUp undoes ArrowDown on a focused entry. */
  lemma DownThenUp(focusIdx: int, filtered: seq<AgentChat>)
    requires 0 <= focusIdx < |filtered|
    ensures ListKeyDown(ListKeyDown(focusIdx, filtered, "ArrowDown").focus, filtered, "ArrowUp").focus == focusIdx
  {
    StepsInverse(focusIdx, |filtered|);
  }
}

=== FILE: slash_utils.dfy ===
/**
 * shouldShowSlashMenu(text): the command menu opens while the input is a
 * single line whose first non-blank character is '/'.
 */
module SlashUtils {
  import opened Text

  function ShouldShowSlashMenu(text: string): (show: bool)
    ensures show ==> '\n' !in text
  {
    '\n' !in text && StartsWith(TrimStart(text), "/")
  }

  /**
   * The menu shows exactly when the text has no newline and holds a '/' that
   * only white space precedes.
   */
  lemma ShowIff(text: string)
    ensures ShouldShowSlashMenu(text) <==>
      '\n' !in text
      && exists k :: 0 <= k < |text| && text[k] == '/' && forall j :: 0 <= j < k ==> IsWhitespace(text[j])
  {
    var t := TrimStart(text);
    var n := |text| - |t|;
    if ShouldShowSlashMenu(text) {
      assert text[n] == t[0] == '/';
    }
    if '\n' !in text && exists k :: 0 <= k < |text| && text[k] == '/' && forall j :: 0 <= j < k ==> IsWhitespace(text[j]) {
      var k :| 0 <= k < |text| && text[k] == '/' && forall j :: 0 <= j < k ==> IsWhitespace(text[j]);
      assert !IsWhitespace(text[k]);
      assert k >= n;
      assert |t| > 0;
      assert t[0] == text[n];
      assert n == k;
    }
  }

  /** Leading spaces never change the answer. */
  lemma LeadingSpaceIgnored(text: string)
    ensures ShouldShowSlashMenu(" " + text) == ShouldShowSlashMenu(text)
  {
    assert (" " + text)[1..] == text;
  }

  /** A first character other than '/' or white space keeps the menu closed, whatever follows. */
  lemma OtherFirstCharHides(text: string)
    requires |text| > 0 && text[0] != '/' && !IsWhitespace(text[0])
    ensures !ShouldShowSlashMenu(text)
  {
    assert TrimStart(text) == text;
  }

  /** Any newline keeps the menu closed. */
  lemma NewlineHides(before: string, after: string)
    ensures !ShouldShowSlashMenu(before + "\n" + after)
  {
    assert (before + "\n" + after)[|before|] == '\n';
  }

  /** A single line starting with '/' shows the menu. */
  lemma SlashFirstShows(rest: string)
    requires '\n' !in rest
    ensures ShouldShowSlashMenu("/" + rest)
  {
    assert !IsWhitespace('/');
    assert TrimStart("/" + rest) == "/" + rest;
  }

  /** A single line with a '/' that only white space precedes shows the menu. */
  lemma SlashAtShows(text: string, k: nat)
    requires k < |text| && text[k] == '/' && '\n' !in text
    requires forall j :: 0 <= j < k ==> IsWhitespace(text[j])
    ensures ShouldShowSlashMenu(text)
  {
    ShowIff(text);
  }

  lemma ShowScenarioCommand()
    ensures ShouldShowSlashMenu("/status")
  {
    SlashAtShows("/status", 0);
  }

  lemma ShowScenarioLeadingSpaces()
    ensures ShouldShowSlashMenu("  /help")
  {
    SlashAtShows("  /help", 2);
  }

  lemma ShowScenarioSlashOnly()
    ensures ShouldShowSlashMenu("/")
  {
    SlashAtShows("/", 0);
  }

  lemma HideScenarios()
    ensures !ShouldShowSlashMenu("hello")
    ensures !ShouldShowSlashMenu("hello /cmd")
    ensures !ShouldShowSlashMenu("/cmd\nmore")
  {
    OtherFirstCharHides("hello");
    OtherFirstCharHides("hello /cmd");
    assert "/cmd\nmore" == "/cmd" + "\n" + "more";
    NewlineHides("/cmd", "more");
  }
}

=== FILE: text.dfy ===
/**
 * String helpers standing in for the JavaScript string methods the application
 * uses: `toLowerCase` (ASCII letters only), `trim`/`trimStart`, `includes`,
 * `startsWith`, `indexOf` and `split` on a single-character separator.
 */
module Text {
  import opened Wrappers

  predicate IsAsciiUpper(c: char) { 'A' <= c <= 'Z' }

  function LowerChar(c: char): (r: char)
    ensures IsAsciiUpper(c) ==> r as int == c as int + 32
    ensures !IsAsciiUpper(c) ==> r == c
  {
    if IsAsciiUpper(c) then (c as int + 32) as char else c
  }

  /** `s.toLowerCase()` restricted to ASCII letters. */
  function Lower(s: string): (r: string)
    ensures |r| == |s|
    ensures forall i :: 0 <= i < |s| ==> r[i] == LowerChar(s[i])
  {
    seq(|s|, i requires 0 <= i < |s| => LowerChar(s[i]))
  }

  /** The characters `String.prototype.trim` removes: white space and line terminators. */
  predicate IsWhitespace(c: char) {
    c in {' ', '\t', '\n', '\r', '\U{000B}', '\U{000C}', '\U{00A0}', '\U{1680}',
          '\U{2000}', '\U{2001}', '\U{2002}', '\U{2003}', '\U{2004}', '\U{2005}',
          '\U{2006}', '\U{2007}', '\U{2008}', '\U{2009}', '\U{200A}', '\U{2028}',
          '\U{2029}', '\U{202F}', '\U{205F}', '\U{3000}', '\U{FEFF}'}
  }

  /** `s.trimStart()`: the longest suffix of `s` that does not start with white space. */
  function TrimStart(s: string): (r: string)
    ensures |r| <= |s| && r == s[|s| - |r|..]
    ensures forall i :: 0 <= i < |s| - |r| ==> IsWhitespace(s[i])
    ensures r == [] || !IsWhitespace(r[0])
  {
    if s != [] && IsWhitespace(s[0]) then TrimStart(s[1..]) else s
  }

  /** `s.trimEnd()`: the longest prefix of `s` that does not end with white space. */
  function TrimEnd(s: string): (r: string)
    ensures |r| <= |s| && r == s[..|r|]
    ensures forall i :: |r| <= i < |s| ==> IsWhitespace(s[i])
    ensures r == [] || !IsWhitespace(r[|r| - 1])
  {
    if s != [] && IsWhitespace(s[|s| - 1]) then TrimEnd(s[..|s| - 1]) else s
  }

  /** `s.trim()`. */
  function Trim(s: string): string {
    TrimEnd(TrimStart(s))
  }

  /** `Trim(s)` is empty exactly when every character of `s` is white space. */
  lemma TrimEmptyIff(s: string)
    ensures Trim(s) == [] <==> forall i :: 0 <= i < |s| ==> IsWhitespace(s[i])
  {
    if Trim(s) == [] {
      assert TrimStart(s) == [];
    }
  }

  /** `s.startsWith(p)`. */
  predicate StartsWith(s: string, p: string) {
    |p| <= |s| && s[..|p|] == p
  }

  /** `sub` occurs in `s` starting at position `i`. */
  predicate OccursAt(s: string, sub: string, i: int) {
    0 <= i <= |s| - |sub| && s[i..i + |sub|] == sub
  }

  /** `s.includes(sub)`: `sub` occurs in `s` at some position. */
  predicate Contains(s: string, sub: string) {
    exists i | 0 <= i <= |s| - |sub| :: OccursAt(s, sub, i)
  }

  lemma ContainsSelf(s: string)
    ensures Contains(s, s)
  {
    assert OccursAt(s, s, 0);
  }

  /** What occurs in a string occurs in any extension of it to the right. */
  lemma ContainsLeft(a: string, b: string, sub: string)
    requires Contains(a, sub)
    ensures Contains(a + b, sub)
  {
    var i :| 0 <= i <= |a| - |sub| && OccursAt(a, sub, i);
    assert (a + b)[i..i + |sub|] == a[i..i + |sub|];
    assert OccursAt(a + b, sub, i);
  }

  /** What occurs in a string occurs in any extension of it to the left. */
  lemma ContainsRight(a: string, b: string, sub: string)
    requires Contains(b, sub)
    ensures Contains(a + b, sub)
  {
    var i :| 0 <= i <= |b| - |sub| && OccursAt(b, sub, i);
    assert (a + b)[|a| + i..|a| + i + |sub|] == b[i..i + |sub|];
    assert OccursAt(a + b, sub, |a| + i);
  }

  /** The middle of a three-part concatenation occurs in it. */
  lemma ContainsMiddle(a: string, x: string, b: string)
    ensures Contains(a + x + b, x)
  {
    ContainsSelf(x);
    ContainsRight(a, x, x);
    ContainsLeft(a + x, b, x);
  }

  /** A prefix of a string is a prefix of any extension of it. */
  lemma StartsWithLeft(a: string, b: string, p: string)
    requires StartsWith(a, p)
    ensures StartsWith(a + b, p)
  {
    assert (a + b)[..|p|] == a[..|p|];
  }

  /** A string starts with `a + b` exactly when it starts with `a` and continues with `b`. */
  lemma StartsWithConcat(s: string, a: string, b: string)
    ensures StartsWith(s, a + b) <==> StartsWith(s, a) && StartsWith(s[|a|..], b)
  {
    if StartsWith(s, a + b) {
      assert s[..|a|] == s[..|a| + |b|][..|a|];
      assert s[|a|..][..|b|] == s[..|a| + |b|][|a|..];
    }
    if StartsWith(s, a) && StartsWith(s[|a|..], b) {
      assert s[..|a| + |b|] == s[..|a|] + s[|a|..][..|b|];
    }
  }

  /** A string without white space trims to itself. */
  lemma TrimPlain(s: string)
    requires forall k :: 0 <= k < |s| ==> !IsWhitespace(s[k])
    ensures Trim(s) == s
  {
    assert TrimStart(s) == s;
    assert TrimEnd(s) == s;
  }

  /** `Contains` is transitive: a substring of a substring is a substring. */
  lemma ContainsTrans(s: string, t: string, u: string)
    requires Contains(s, t) && Contains(t, u)
    ensures Contains(s, u)
  {
    var i :| 0 <= i <= |s| - |t| && OccursAt(s, t, i);
    var j :| 0 <= j <= |t| - |u| && OccursAt(t, u, j);
    forall k | 0 <= k < |u|
      ensures s[i + j + k] == u[k]
    {
      assert u[k] == t[j + k] == s[i + j + k];
    }
    assert s[i + j..i + j + |u|] == u;
    assert OccursAt(s, u, i + j);
  }

  /** `s.indexOf(c)` as an option: the first position holding `c`. */
  function IndexOf(s: string, c: char): (r: Option<nat>)
    ensures r.None? <==> c !in s
    ensures r.Some? ==> r.value < |s| && s[r.value] == c && c !in s[..r.value]
  {
    if s == [] then None
    else if s[0] == c then Some(0)
    else match IndexOf(s[1..], c)
      case None => None
      case Some(i) => Some(i + 1)
  }

  /** The first occurrence is where `indexOf` finds it. */
  lemma {:induction false} IndexOfAt(s: string, c: char, i: nat)
    requires i < |s| && s[i] == c && c !in s[..i]
    ensures IndexOf(s, c) == Some(i)
  {
    if i > 0 {
      assert s[1..][..i - 1] == s[..i][1..];
      IndexOfAt(s[1..], c, i - 1);
    }
  }

  /** `s.split(sep)` for a one-character separator. */
  function Split(s: string, sep: char): (parts: seq<string>)
    ensures |parts| >= 1
    ensures forall i :: 0 <= i < |parts| ==> sep !in parts[i]
    decreases |s|
  {
    match IndexOf(s, sep)
    case None => [s]
    case Some(i) => [s[..i]] + Split(s[i + 1..], sep)
  }

  /** A string without the separator splits into itself alone. */
  lemma SplitNone(s: string, sep: char)
    requires sep !in s
    ensures Split(s, sep) == [s]
  {
  }

  /** Splitting at the first separator: the part before it, then the split of the rest. */
  lemma SplitFirst(a: string, sep: char, b: string)
    requires sep !in a
    ensures Split(a + [sep] + b, sep) == [a] + Split(b, sep)
  {
    var s := a + [sep] + b;
    assert s[|a|] == sep && s[..|a|] == a && s[|a| + 1..] == b;
    assert IndexOf(s, sep) == Some(|a|);
  }

  /** Three separator-free parts joined by the separator split back into those parts. */
  lemma SplitThree(a: string, b: string, c: string, sep: char)
    requires sep !in a && sep !in b && sep !in c
    ensures Split(a + [sep] + b + [sep] + c, sep) == [a, b, c]
  {
    assert a + [sep] + b + [sep] + c == a + [sep] + (b + [sep] + c);
    SplitFirst(a, sep, b + [sep] + c);
    SplitFirst(b, sep, c);
    SplitNone(c, sep);
  }

  /** `parts.join(sep)`. */
  function Join(parts: seq<string>, sep: char): string
    requires |parts| >= 1
  {
    if |parts| == 1 then parts[0] else parts[0] + [sep] + Join(parts[1..], sep)
  }

  /** Splitting loses nothing: joining the parts with the separator rebuilds the string. */
  lemma {:induction false} JoinSplit(s: string, sep: char)
    ensures Join(Split(s, sep), sep) == s
    decreases |s|
  {
    match IndexOf(s, sep)
    case None =>
    case Some(i) =>
      var rest := s[i + 1..];
      var parts := Split(rest, sep);
      var all := [s[..i]] + parts;
      assert Split(s, sep) == all;
      JoinSplit(rest, sep);
      assert all[1..] == parts;
      assert Join(all, sep) == s[..i] + [sep] + Join(parts, sep);
      assert s == s[..i] + [sep] + rest;
  }

  /**
   * Code-point lexicographic order, standing in for `localeCompare`: `a`
   * sorts strictly before `b`.
   */
  predicate LexLess(a: string, b: string) {
    if a == [] then b != []
    else if b == [] then false
    else if a[0] != b[0] then a[0] < b[0]
    else LexLess(a[1..], b[1..])
  }

  lemma {:induction false} LexLessIrreflexive(a: string)
    ensures !LexLess(a, a)
  {
    if a != [] { LexLessIrreflexive(a[1..]); }
  }

  lemma {:induction false} LexLessAsymmetric(a: string, b: string)
    requires LexLess(a, b)
    ensures !LexLess(b, a)
  {
    if a != [] && b != [] && a[0] == b[0] { LexLessAsymmetric(a[1..], b[1..]); }
  }

  lemma {:induction false} LexLessTransitive(a: string, b: string, c: string)
    requires LexLess(a, b) && LexLess(b, c)
    ensures LexLess(a, c)
  {
    if a != [] && a[0] == b[0] && b[0] == c[0] { LexLessTransitive(a[1..], b[1..], c[1..]); }
  }

  /** Distinct strings are always ordered one way or the other. */
  lemma {:induction false} LexLessTotal(a: string, b: string)
    requires a != b
    ensures LexLess(a, b) || LexLess(b, a)
  {
    if a != [] && b != [] && a[0] == b[0] {
      assert a == [a[0]] + a[1..] && b == [b[0]] + b[1..];
      LexLessTotal(a[1..], b[1..]);
    }
  }
}

=== FILE: update_check.dfy ===
/**
 * isNewer(remote, local): whether a dotted version string names a later
 * release than another, comparing numeric segments left to right with
 * missing segments read as 0.
 */
module UpdateCheck {
  import opened Wrappers
  import opened Text

  predicate IsDigit(c: char) { '0' <= c <= '9' }

  predicate AllDigits(s: string) {
    forall i :: 0 <= i < |s| ==> IsDigit(s[i])
  }

  /** The decimal value of a string of digits. */
  function DigitsValue(s: string): nat
    requires AllDigits(s)
  {
    if s == [] then 0
    else DigitsValue(s[..|s| - 1]) * 10 + (s[|s| - 1] as int - '0' as int)
  }

  /**
   * A segment of digits reads as its decimal value; every other segment
   * (empty, or not a decimal numeral) reads as 0. This reading is the
   * model's own choice: the tests only use segments of digits.
   */
  function SegmentValue(seg: string): nat {
    if AllDigits(seg) then DigitsValue(seg) else 0
  }

  /** The numeric segments of a dotted version string. */
  function Segments(v: string): (r: seq<nat>)
    ensures |r| == |Split(v, '.')|
  {
    var parts := Split(v, '.');
    seq(|parts|, i requires 0 <= i < |parts| => SegmentValue(parts[i]))
  }

  /** Segment `i`, or 0 past the end. */
  function Seg(s: seq<nat>, i: nat): nat {
    if i < |s| then s[i] else 0
  }

  function Tail(s: seq<nat>): seq<nat> {
    if s == [] then [] else s[1..]
  }

  function Max(a: nat, b: nat): nat { if a < b then b else a }

  /** Segment-wise comparison, stopping at the first segment that differs. */
  function NewerSegments(r: seq<nat>, l: seq<nat>): bool
    decreases |r| + |l|
  {
    if r == [] && l == [] then false
    else if Seg(r, 0) > Seg(l, 0) then true
    else if Seg(r, 0) < Seg(l, 0) then false
    else NewerSegments(Tail(r), Tail(l))
  }

  /**
   * isNewer: the remote version is later exactly when, at the first segment
   * where the two differ once padded with zeros, the remote one is larger.
   */
  function IsNewer(remote: string, local: string): (r: bool)
    ensures r <==> Later(Segments(remote), Segments(local))
  {
    NewerIffLater(Segments(remote), Segments(local));
    NewerSegments(Segments(remote), Segments(local))
  }

  /** Two versions agree on every segment once padded with zeros. */
  ghost predicate SameVersion(r: seq<nat>, l: seq<nat>) {
    forall k :: 0 <= k < Max(|r|, |l|) ==> Seg(r, k) == Seg(l, k)
  }

  /**
   * The reference order: `r` is later than `l` when at the first segment
   * where the zero-padded versions differ, `r` has the larger value.
   */
  ghost predicate LaterAt(r: seq<nat>, l: seq<nat>, k: nat) {
    k < Max(|r|, |l|) && Seg(r, k) > Seg(l, k)
    && forall j :: 0 <= j < k ==> Seg(r, j) == Seg(l, j)
  }

  ghost predicate Later(r: seq<nat>, l: seq<nat>) {
    exists k :: LaterAt(r, l, k)
  }

  lemma SegTail(s: seq<nat>, k: nat)
    ensures Seg(Tail(s), k) == Seg(s, k + 1)
  {
  }

  /** The recursive comparison is the lexicographic order on zero-padded segments. */
  lemma {:induction false} NewerIffLater(r: seq<nat>, l: seq<nat>)
    ensures NewerSegments(r, l) <==> Later(r, l)
    decreases |r| + |l|
  {
    if r == [] && l == [] {
      assert forall k: nat :: !LaterAt(r, l, k);
    } else if Seg(r, 0) > Seg(l, 0) {
      assert LaterAt(r, l, 0);
    } else if Seg(r, 0) < Seg(l, 0) {
      assert forall k: nat :: !LaterAt(r, l, k);
    } else {
      var r', l' := Tail(r), Tail(l);
      NewerIffLater(r', l');
      if NewerSegments(r', l') {
        var k: nat :| LaterAt(r', l', k);
        forall j | 0 <= j < k + 1 ensures Seg(r, j) == Seg(l, j) {
          if j > 0 { SegTail(r, j - 1); SegTail(l, j - 1); }
        }
        SegTail(r, k); SegTail(l, k);
        assert LaterAt(r, l, k + 1);
      }
      if Later(r, l) {
        var k: nat :| LaterAt(r, l, k);
        assert k > 0;
        forall j | 0 <= j < k - 1 ensures Seg(r', j) == Seg(l', j) {
          SegTail(r, j); SegTail(l, j);
          assert Seg(r, j + 1) == Seg(l, j + 1);
        }
        SegTail(r, k - 1); SegTail(l, k - 1);
        assert LaterAt(r', l', k - 1);
      }
    }
  }

  /** A version is never newer than itself, nor than any zero-padded form of itself. */
  lemma {:induction false} NotNewerThanSame(r: seq<nat>, l: seq<nat>)
    requires SameVersion(r, l)
    ensures !NewerSegments(r, l) && !NewerSegments(l, r)
  {
    NewerIffLater(r, l);
    NewerIffLater(l, r);
    assert forall k: nat :: !LaterAt(r, l, k) && !LaterAt(l, r, k);
  }

  /** Irreflexivity: equal versions are not newer. */
  lemma Irreflexive(v: string)
    ensures !IsNewer(v, v)
  {
    NotNewerThanSame(Segments(v), Segments(v));
  }

  /**
   * Swapping the arguments flips the answer for distinct versions: exactly one
   * of "newer", "older" and "same once padded" holds.
   */
  lemma {:induction false} Trichotomy(r: seq<nat>, l: seq<nat>)
    ensures SameVersion(r, l) || NewerSegments(r, l) || NewerSegments(l, r)
    ensures !(NewerSegments(r, l) && NewerSegments(l, r))
    ensures SameVersion(r, l) ==> !NewerSegments(r, l) && !NewerSegments(l, r)
    decreases |r| + |l|
  {
    if SameVersion(r, l) {
      NotNewerThanSame(r, l);
    } else if r == [] && l == [] {
    } else if Seg(r, 0) != Seg(l, 0) {
    } else {
      var r', l' := Tail(r), Tail(l);
      Trichotomy(r', l');
      if SameVersion(r', l') {
        forall k | 0 <= k < Max(|r|, |l|) ensures Seg(r, k) == Seg(l, k) {
          if k > 0 { SegTail(r, k - 1); SegTail(l, k - 1); }
        }
      }
    }
  }

  /** Transitivity of the version order. */
  lemma {:induction false} Transitive(a: seq<nat>, b: seq<nat>, c: seq<nat>)
    requires NewerSegments(a, b) && NewerSegments(b, c)
    ensures NewerSegments(a, c)
    decreases |a| + |b| + |c|
  {
    if Seg(a, 0) == Seg(b, 0) && Seg(b, 0) == Seg(c, 0) {
      Transitive(Tail(a), Tail(b), Tail(c));
    }
  }

  /** A larger first (major) segment decides, whatever follows. */
  lemma MajorDominates(r: seq<nat>, l: seq<nat>)
    requires Seg(r, 0) > Seg(l, 0)
    ensures NewerSegments(r, l)
  {
  }

  /** With equal major segments the minor segment decides, whatever follows. */
  lemma MinorDominates(r: seq<nat>, l: seq<nat>)
    requires Seg(r, 0) == Seg(l, 0) && Seg(r, 1) > Seg(l, 1)
    ensures NewerSegments(r, l) && !NewerSegments(l, r)
  {
    SegTail(r, 0); SegTail(l, 0);
  }

  /** '1.1' is newer than '1.0.9': the missing patch segment reads as 0. */
  lemma MissingSegmentScenario()
    ensures NewerSegments([1, 1], [1, 0, 9])
    ensures !NewerSegments([1, 3, 9], [1, 4, 0])
    ensures NewerSegments([1, 66, 1], [1, 66, 0]) && !NewerSegments([1, 66, 0], [1, 66, 1])
  {
    assert Tail([1, 1]) == [1];
    assert Tail([1, 0, 9]) == [0, 9];
    assert Tail([1, 66, 1]) == [66, 1] && Tail([66, 1]) == [1];
    assert Tail([1, 66, 0]) == [66, 0] && Tail([66, 0]) == [0];
  }

  /** A three-part version reads as the values of its three parts. */
  lemma SegmentsOfThree(a: string, b: string, c: string)
    requires '.' !in a && '.' !in b && '.' !in c
    ensures Segments(a + ['.'] + b + ['.'] + c) == [SegmentValue(a), SegmentValue(b), SegmentValue(c)]
  {
    SplitThree(a, b, c, '.');
  }

  /** A version of two dot-free parts reads as the values of those two parts. */
  lemma SegmentsOfTwo(a: string, b: string)
    requires '.' !in a && '.' !in b
    ensures Segments(a + ['.'] + b) == [SegmentValue(a), SegmentValue(b)]
  {
    SplitFirst(a, '.', b);
    SplitNone(b, '.');
  }

  /** '1.1' is newer than '1.0.9', read from the version strings themselves. */
  lemma MissingSegmentStrings()
    ensures Segments("1.1") == [1, 1] && Segments("1.0.9") == [1, 0, 9]
    ensures IsNewer("1.1", "1.0.9")
  {
    assert "1.1" == "1" + ['.'] + "1";
    SegmentsOfTwo("1", "1");
    assert "1.0.9" == "1" + ['.'] + "0" + ['.'] + "9";
    SegmentsOfThree("1", "0", "9");
    DigitScenario();
    MissingSegmentScenario();
  }

  lemma DigitScenario()
    ensures SegmentValue("1") == 1 && SegmentValue("66") == 66 && SegmentValue("0") == 0
    ensures SegmentValue("9") == 9
  {
    assert "66"[..1] == "6";
    assert DigitsValue("6") == 6;
  }

  /** Reading the version strings: '1.66.0' has the segments 1, 66 and 0. */
  lemma ParseScenario()
    ensures Segments("1.66.0") == [1, 66, 0]
  {
    assert "1.66.0" == "1" + ['.'] + "66" + ['.'] + "0";
    SegmentsOfThree("1", "66", "0");
    DigitScenario();
  }
}

=== FILE: wrappers.dfy ===
/** An optional value, standing for JavaScript's `undefined` where a value may be missing. */
module Wrappers {

  datatype Option<+T> = None | Some(value: T) {

    /** The wrapped value, or `default` when there is none (JavaScript's `x ?? default`). */
    function GetOr(default: T): T {
      match this
      case Some(v) => v
      case None => default
    }
  }
}
